=== FILE: README.md ===
# Multi-slot data feed, CVM shape inference and parameter-server roles

A Dafny model of three pieces of an early PaddlePaddle tree:

- **The multi-slot data feed** (`paddle/fluid/framework/data_feed.cc`). It covers:
  - the slot schema built by `Init`;
  - the shared file work-list (`SetFileList`, `PickOneFile`);
  - the line-format validator `CheckFile`;
  - the line parser `ParseOneInstance*`;
  - batch assembly (`AddInstanceToInsVec`, `PutToFeedVec`);
  - the streaming feed (`PrivateQueueDataFeed`: `Start`, `ReadThread`, `Next`);
  - the in-memory double-buffered feed (`InMemoryDataFeed`: `LoadIntoMemory`, `LocalShuffle`, `Start`, `Next`).
- **The shape inference of the CVM operator** and of its gradient (`paddle/fluid/operators/cvm_op.cc`).
- **The rank-to-role assignment** of a parameter-server run (`python/paddle/fluid/distributed/ps_instance.py`).

Modules, one per file:

| module | file | what it holds |
|---|---|---|
| `Results` | results.dfy | `Option`, and `Result` with the `:-` failure operator |
| `CInt` | c_int.dfy | C integer behaviour over unbounded integers: `int`/`long`/`uint64_t` ranges, `strtol` saturation, narrowing to `int`, `uint64_t` ↔ `int64_t` reinterpretation, truncating division |
| `Lines` | lines.dfy | a data line as whitespace-separated tokens; `strtol`/`strtoull`/`strtof` at token level; the line format `Encode` |
| `WorkList` | work_list.dfy | `filelist_`, `file_idx_`, `finish_set_filelist_` |
| `FeedSchema` | feed_schema.dfy | the schema arrays, `SetBatchSize`, `SetQueueSize`, `Init` |
| `MultiSlotType` | multi_slot_type.dfy | slot records and batch accumulators (values plus offsets) |
| `CheckFile` | check_file.dfy | the validator as written and corrected |
| `ParseInstance` | parse_instance.dfy | the parser; its round trip with `Encode`; its agreement with the validator |
| `PipeSkip` | pipe_skip.dfy | the character-level skip over unused slots, as written and corrected |
| `Batch` | batch.dfy | `AddInstanceToInsVec`, batch folding, `PutToFeedVec`, batch sizes |
| `StreamFeed` | stream_feed.dfy | the streaming feed |
| `InMemoryFeed` | in_memory_feed.dfy | the in-memory feed with its two channels |
| `CvmShape` | cvm_shape.dfy | `CVMOp::InferShape`, `CVMGradientOp::InferShape` |
| `PsInstance` | ps_instance.dfy | the worker/server counts, `_set_nodetype`, `is_worker`, `is_server` |

An abort of the process (`PADDLE_ENFORCE`, `CHECK`) is an `Err` carrying the reason. Threads are modelled as follows:

- The file work-list is guarded by a mutex, so any interleaving of claims is one sequence of atomic `PickOneFile` calls.
- The blocking queue is first-in first-out. `Receive` fails only once the queue is closed and empty. Whatever the interleaving, the consumer therefore receives exactly what the reader sends, in order.
- The model runs the reader to completion in `Start`, and `Next` takes from the resulting sequence.

`data_feed.h` is not part of this model. `MultiSlotType` is modelled by the way the feed uses it:
- `Init(type)` gives an empty record of that type, and is taken to abort on any type other than "float" or "uint64" (the parser reports that as `UnknownSlotType`); without that abort, `ParseOneInstance`, which tests only the first letter of the type, would read a type beginning with `f` (such as "float64") as float, one beginning with `u` as uint64, and no values for any other;
- `InitOffset()` seeds the offsets with 0;
- `AddIns` appends the values and pushes the new value count as the next offset.

The slot types of a batch (`tys`) are an explicit parameter. They stand for what each record's `Init` fixed.

## Model

| member | source | states |
|---|---|---|
| WorkList.SetFileList | paddle/fluid/framework/data_feed.cc:43-56 | aborts before `Init`; a second call returns false and changes nothing; an empty list aborts; otherwise the list is installed, the cursor is at its start and the list counts as set, so the files still to claim are exactly the given list |
| WorkList.SecondSetFileListChangesNothing | paddle/fluid/framework/data_feed.cc:46-49 | after a successful `SetFileList`, another call with any files is refused and leaves list and cursor as they were |
| WorkList.PickOneFile | paddle/fluid/framework/data_feed.cc:63-71 | reports no file exactly when the cursor is at the end; otherwise hands out the file under the cursor, which is the head of the remaining files, and the rest remain; the list and the set flag never change |
| WorkList.PickManyClaimsInOrder | paddle/fluid/framework/data_feed.cc:63-71 | `n` successive claims hand out the next `min(n, remaining)` files, each once and in list order, and advance the cursor by exactly that many |
| WorkList.ExhaustedStaysExhausted | paddle/fluid/framework/data_feed.cc:65-67 | once every file is claimed, any number of further claims find nothing and change nothing |
| FeedSchema.BuildSchema | paddle/fluid/framework/data_feed.cc:259-275 | the arrays describe the slots: names and types by position; a position's index is -1 exactly for an unused slot, and otherwise the number of used slots before it; `use_slots_` and the dense flags follow in schema order |
| FeedSchema.Init | paddle/fluid/framework/data_feed.cc:247-278 | succeeds exactly with a multi-slot description and a positive batch size (which is also the queue capacity); it aborts with the matching reason otherwise; on success the schema describes the slots, the feed is initialised and not started, and the shared list counts as not set while its files and cursor are kept |
| FeedSchema.UsedIndexIncreasing | paddle/fluid/framework/data_feed.cc:269-273 | used slots keep schema order: a later used position has a larger index |
| FeedSchema.UsedIndexOnto | paddle/fluid/framework/data_feed.cc:269-273 | every used-slot index is taken by some schema position |
| CInt.SaturateLongNearest | paddle/fluid/framework/data_feed.cc:326 | the `long` that `strtol` returns for a literal is the unique `long` nearest to it |
| CInt.WrapInt32 | paddle/fluid/framework/data_feed.cc:326 | storing the `long` count in an `int` keeps it modulo 2^32, unchanged when it fits |
| CInt.StrtoullValue | paddle/fluid/framework/data_feed.cc:366 | `strtoull` gives `ULLONG_MAX` on overflow and the literal modulo 2^64 otherwise, unchanged when in range |
| CInt.ReinterpretAsInt64 | paddle/fluid/framework/data_feed.cc:538-541 | the `int64_t` with the same bits as a `uint64_t`: congruent modulo 2^64, equal below 2^63, negative above |
| CInt.ReinterpretRoundTrip | paddle/fluid/framework/data_feed.cc:538-541 | reading the `int64_t` bits back as `uint64_t` gives the original value, and the other way round |
| CInt.TruncDiv | paddle/fluid/framework/data_feed.cc:547 | C division by a positive divisor: the remainder is smaller than the divisor and never has the opposite sign of the dividend |
| CInt.TruncDivExact | paddle/fluid/framework/data_feed.cc:547 | an exact multiple divides back to its factor |
| Lines.Strtol | paddle/fluid/framework/data_feed.cc:326 | consumes one integer token or nothing; reads 0 without `ERANGE` when nothing is converted; the value is always a `long` |
| Lines.Convert | paddle/fluid/framework/data_feed.cc:347-380 | a slot's value conversion yields a value of the slot's type and consumes at most one token; nothing consumed means no `ERANGE`; a `uint64` integer reports `ERANGE` exactly when its magnitude exceeds `ULLONG_MAX`; a `float` integer reports it exactly when round-to-nearest-even takes it to infinity, i.e. when it is no nearer to `FLT_MAX` than to 2^128; any other `float` literal reports it exactly when it does not fit |
| CheckFile.FloatOverflowRejected | paddle/fluid/framework/data_feed.cc:347-355 | a `float` value of 2^128 - 2^100, past the rounding midpoint above `FLT_MAX`, fails both validators with the out-of-range error, while `FLT_MAX` itself passes both |
| CheckFile.CheckFile | paddle/fluid/framework/data_feed.cc:299-408 | aborts as `NotInitialized` before `Init` (`CheckInit`); otherwise true exactly when the file opens and every line passes the line check as written |
| CheckFile.CheckLines | paddle/fluid/framework/data_feed.cc:320-404 | the line loop accepts exactly when every line passes the line check as written |
| CheckFile.EncodingAccepted | paddle/fluid/framework/data_feed.cc:320-404 | as written and corrected alike, the encoding of a well-formed row (known types, counts in `[1, INT_MAX]`, every value read whole without `ERANGE`) passes, with or without trailing whitespace; any further token is rejected as trailing characters |
| CheckFile.AcceptedLineIsEncoding | paddle/fluid/framework/data_feed.cc:325-386 | the converse, for the corrected check only: a line the corrected check accepts is the encoding of a well-formed row, so every count is in `[1, INT_MAX]`, every type is known and every value is read whole and in range |
| CheckFile.AcceptedLineDecodes | paddle/fluid/framework/data_feed.cc:320-404 | the converse for whole lines, for the corrected check only: a line the corrected check accepts is exactly the encoding of a well-formed row (as written, `WrappedCountAccepted` and `MissingValueAccepted` show lines that pass without being one) |
| CheckFile.ZeroCountRejected | paddle/fluid/framework/data_feed.cc:326-340 | as written and corrected alike, a zero or unreadable count at any slot, after well-formed earlier slots, rejects the line as a zero count |
| CheckFile.UnknownTypeRejected | paddle/fluid/framework/data_feed.cc:347-385 | as written and corrected alike, a slot whose type is neither "float" nor "uint64", after well-formed earlier slots and with a valid count, rejects the line naming that type |
| CheckFile.CorrectedAcceptsLess | paddle/fluid/framework/data_feed.cc:320-404 | every line the corrected check accepts is also accepted as written, so the two defects only widen acceptance |
| CheckFile.CorrectedFileAcceptsLess | paddle/fluid/framework/data_feed.cc:299-408 | once the feed is initialised, every file the corrected check accepts is also accepted by `CheckFile` |
| CheckFile.TrailingSpaceIrrelevant | paddle/fluid/framework/data_feed.cc:387-403 | trailing whitespace never changes the corrected verdict |
| CheckFile.WrappedCountAccepted | paddle/fluid/framework/data_feed.cc:326-346 | as written, a count of 2^32 + 1 narrows to 1 and passes; the corrected check rejects it as too large |
| CheckFile.MissingValueAccepted | paddle/fluid/framework/data_feed.cc:347-380 | as written, a slot with no value, or one value short before trailing whitespace, passes; the corrected check rejects both |
| MultiSlotType.NewAccumulator | paddle/fluid/framework/data_feed.cc:514-515 | `Init` then `InitOffset` give an empty, well-typed accumulator of the given type holding no instance |
| MultiSlotType.AddIns | paddle/fluid/framework/data_feed.cc:520 | one more instance: the new last segment is exactly the record's values, earlier segments are kept, the values are appended and the offsets stay an accumulator |
| ParseInstance.ReadValues | paddle/fluid/framework/data_feed.cc:482-495 | a used slot reads exactly `num` values, all of its declared type, moving over at most `num` tokens |
| ParseInstance.SkipUnused | paddle/fluid/framework/data_feed.cc:496-500 | an unused slot with count `num` skips the count and `num` values when they lie on the line, and stays put for a negative count; when the last value is the last token, a following space decides between landing after it and "not found"; a search past the end restarts at the beginning of the line, so the result is always on the line or "not found"; it requires a count below `INT_MAX`, since at `INT_MAX` the `int` loop counter `j` overflows, and the parser reports that case before skipping |
| ParseInstance.ParseSlot | paddle/fluid/framework/data_feed.cc:471-500 | one slot adds a record exactly when it is used and keeps the earlier records; it aborts only on a zero count, an unknown type, or an unused slot whose count narrows to `INT_MAX`, and on the last exactly then: there the skip loop's `int` counter overflows |
| ParseInstance.ParseSlots | paddle/fluid/framework/data_feed.cc:471-501 | the slot loop ends with one record per used slot, extending the records already collected; the only aborts are a zero count, an unknown type, an unused slot's count of `INT_MAX`, or a further slot after a skip whose last search found nothing |
| ParseInstance.ParseLine | paddle/fluid/framework/data_feed.cc:462-506 | a parsed line has one record per used slot, and each used slot's record has the slot's declared type and only values of it |
| ParseInstance.ParsedRecordsFit | paddle/fluid/framework/data_feed.cc:482-495 | every used slot from a given position on gets a record of its declared type |
| ParseInstance.ParseLines | paddle/fluid/framework/data_feed.cc:290-293 | reading a file succeeds exactly when every line parses, giving one instance per line in line order |
| ParseInstance.DecodeGroup | paddle/fluid/framework/data_feed.cc:484-494 | a group decodes to one value per token |
| ParseInstance.EncodingParses | paddle/fluid/framework/data_feed.cc:471-501 | round trip: the encoding of a well-formed row, followed by anything, parses exactly when no unused slot holds `INT_MAX` values, and then each used slot's record holds exactly its group's values, of its type; otherwise the parse aborts with the skip counter overflow |
| ParseInstance.CheckedLineParses | paddle/fluid/framework/data_feed.cc:473-500 | a line the corrected validator accepts is the encoding of a well-formed row; it parses exactly when no unused slot of that row holds `INT_MAX` values, and otherwise aborts only for the skip counter overflow |
| ParseInstance.CheckedFileParses | paddle/fluid/framework/data_feed.cc:290-293 | a file the corrected validator accepts parses into one instance per line, and the only abort left is the skip counter overflow |
| ParseInstance.ZeroCountAborts | paddle/fluid/framework/data_feed.cc:473-480 | a zero or unreadable count at any slot, after well-formed earlier slots none of which is an unused one holding `INT_MAX` values, aborts the parse |
| PipeSkip.FindSpace | paddle/fluid/framework/data_feed.cc:498 | `find_first_of(' ', from)` stored in an `int`: the first space at or after `from`, or -1 exactly when there is none |
| PipeSkip.SkipLandsBeforeNextCount | paddle/fluid/framework/data_feed.cc:496-500 | for every count below `INT_MAX`, the corrected skip passes the count and its `num` values and stops at the space before the next count; it gives -1 when the last value is the last word; past that, the leftover searches start again from the beginning of the line; a negative count leaves `pos` alone |
| PipeSkip.SkipFindCycles | paddle/fluid/framework/data_feed.cc:496-500 | from -1, as many searches as the line has words come back to -1, so a long skip goes round the line |
| PipeSkip.SkipMatchesTokens | paddle/fluid/framework/data_feed.cc:496-500 | for every count below `INT_MAX`, the token model of the skip agrees with the character-level search on a line of single-space-separated words |
| PipeSkip.SkipWrapsAround | paddle/fluid/framework/data_feed.cc:496-500 | on "3 1 2" with the first slot unused, the fourth search starts over after the third ran off the line, and the used slot reads the value 2 without error |
| PipeSkip.AdvanceIsSearch | paddle/fluid/framework/data_feed.cc:452-454 | one run of the loop stops just before the next space |
| PipeSkip.SkipAsWrittenStaysOnCount | paddle/fluid/framework/data_feed.cc:450-455 | as written, the skip stops on the last character of the unused slot's count, whatever the non-negative count below `INT_MAX`, or runs past the end of the line |
| PipeSkip.SkipsDisagree | paddle/fluid/framework/data_feed.cc:450-455 | on a well-formed line the skip as written always ends before where the corrected skip ends |
| PipeSkip.SkipCounterOverflows | paddle/fluid/framework/data_feed.cc:496-500 | on "2147483647 1 2" with the first slot unused, the skip loop's counter would overflow, and the parse aborts with `SkipCounterOverflow` instead of reading the used slot |
| PipeSkip.PipeSkipMisreads | paddle/fluid/framework/data_feed.cc:425-456 | on "1 5 1 9" with the first slot unused, the corrected parse gives the used slot the value 9, while as written it re-reads the first count and takes 5 |
| Batch.AddInstanceToInsVec | paddle/fluid/framework/data_feed.cc:508-522 | index 0 starts fresh accumulators of the records' types; every slot then gains one segment holding exactly the instance's record; earlier segments and values are kept |
| Batch.FoldBatch | paddle/fluid/framework/data_feed.cc:125-130 | folding a batch gives one well-typed accumulator per used slot, each counting the batch's instances |
| Batch.FoldBatchHoldsBatch | paddle/fluid/framework/data_feed.cc:508-522 | after a batch, a slot's accumulator holds the slot's column, and its `n`-th segment is exactly the `n`-th instance's record |
| Batch.BatchCount | paddle/fluid/framework/data_feed.cc:125-131 | a call takes at most the batch size and at most what is there; it stops short of a full batch only when nothing is left |
| Batch.TakeBatch | paddle/fluid/framework/data_feed.cc:125-130 | the instances taken followed by those left are the queue, and the count taken is the batch count |
| Batch.DrainDeliversQueue | paddle/fluid/framework/data_feed.cc:119-136 | with a positive batch size, successive calls hand out every queued instance once and in order, in full batches except possibly the last |
| Batch.FeedSlot | paddle/fluid/framework/data_feed.cc:526-550 | a slot's tensor decodes back to the slot's values; its element type follows the slot type; its lod is the offsets; it is `[total, 1]`, or `[batch, total / batch]` for a dense slot with the quotient truncated |
| Batch.PutToFeedVec | paddle/fluid/framework/data_feed.cc:524-551 | one tensor per used slot, each the slot's tensor |
| Batch.BatchReadsBack | paddle/fluid/framework/data_feed.cc:528-545 | the lod has one boundary per instance plus one, from 0 to the total, and instance `n`'s values lie between boundaries `n` and `n + 1` |
| Batch.DenseShape | paddle/fluid/framework/data_feed.cc:546-549 | a dense slot whose instances all hold `d` values comes out `[batch, d]` while the total fits an `int` |
| Batch.ParsedInstancesConform | paddle/fluid/framework/data_feed.cc:482-495 | any two parsed lines under one schema have the same slot types, so their instances can share a batch |
| StreamFeed.ReadFiles | paddle/fluid/framework/data_feed.cc:280-297 | every instance read has one record per used slot; the first file that cannot be opened fails the `CHECK` |
| StreamFeed.ReadFilesSucceeds | paddle/fluid/framework/data_feed.cc:282-293 | reading succeeds exactly when every named file opens and every one of its lines parses |
| StreamFeed.ReadThread | paddle/fluid/framework/data_feed.cc:280-297 | the reader sends exactly the instances of the unclaimed files, file by file and line by line, and leaves every file claimed |
| StreamFeed.Start | paddle/fluid/framework/data_feed.cc:93-101 | aborts without a file list; otherwise the queue receives what the reader sends, the feed is started and no file is left unclaimed |
| StreamFeed.ReadFilesConform | paddle/fluid/framework/data_feed.cc:290-293 | every instance read shares the slot types of the first one |
| StreamFeed.Next | paddle/fluid/framework/data_feed.cc:119-136 | aborts unless started; the count is the batch count, the instances come off the front of the queue, and tensors are published exactly when the count is nonzero, built from those instances |
| InMemoryFeed.Fresh | paddle/fluid/framework/data_feed.cc:142-146 | a new feed holds nothing and reads channel 0 |
| InMemoryFeed.LoadIntoMemory | paddle/fluid/framework/data_feed.cc:201-217 | appends the instances of every unclaimed file to memory, in file and line order, and claims every file; a failed read fails it |
| InMemoryFeed.Swap | paddle/fluid/framework/data_feed.cc:221 | an exchange of two positions keeps length and contents |
| InMemoryFeed.LocalShuffle | paddle/fluid/framework/data_feed.cc:219-222 | the shuffle rearranges memory, with the same instances as often as before, and changes nothing else |
| InMemoryFeed.Start | paddle/fluid/framework/data_feed.cc:148-158 | aborts without a file list, or with loaded memory while channel 1 is current; otherwise memory moves to the back of channel 0 and is cleared, nothing else moves, and the feed is started |
| InMemoryFeed.Advance | paddle/fluid/framework/data_feed.cc:174-190 | a nonempty batch moves from the front of the input channel to the back of the output channel; an empty one swaps the channels; nothing is lost or duplicated |
| InMemoryFeed.AdvanceConforming | paddle/fluid/framework/data_feed.cc:174-184 | moving instances between channels keeps their slot types |
| InMemoryFeed.Next | paddle/fluid/framework/data_feed.cc:160-192 | aborts unless started; the count is the batch count of the input channel; tensors are published exactly when it is nonzero, from the instances taken; the channels move as `Advance` says |
| InMemoryFeed.PassServesEachOnce | paddle/fluid/framework/data_feed.cc:177-191 | calls up to the first zero serve every input instance once, in order, behind the output channel's; the closing zero swaps the channels, so the next pass serves the same instances |
| InMemoryFeed.LoadedInstancesReachChannel | paddle/fluid/framework/data_feed.cc:151-155 | loading then starting puts the loaded instances, in order, at the back of channel 0 |
| CvmShape.InferShape | paddle/fluid/operators/cvm_op.cc:27-46 | succeeds exactly when X, CVM and Y exist, X and CVM have rank 2 and CVM is 2 wide, with missing variables reported in order; Y is `[N, D]` with `use_cvm` and `[N, D - 2]` without, and shares X's lod |
| CvmShape.InferGradShape | paddle/fluid/operators/cvm_op.cc:63-87 | succeeds exactly when X, CVM, Y@GRAD and X@GRAD exist, all three inputs have rank 2, X and Y@GRAD agree on rows and CVM is 2 wide; X@GRAD then has X's shape and lod |
| CvmShape.ForwardOutputFitsGradient | paddle/fluid/operators/cvm_op.cc:63-87 | whatever the forward pass infers for Y passes the gradient checks as Y@GRAD |
| CvmShape.DefaultKeepsWidth | paddle/fluid/operators/cvm_op.cc:113 | with the default `use_cvm` the output is X's description |
| CvmShape.UseCvmDecidesWidth | paddle/fluid/operators/cvm_op.cc:40-44 | the two settings of `use_cvm` differ by exactly 2 columns and agree on rows and lod |
| CvmShape.GradientIgnoresDyWidth | paddle/fluid/operators/cvm_op.cc:74-84 | the gradient checks never look at Y@GRAD's width |
| PsInstance.RankedMeansProcPositive | python/paddle/fluid/distributed/ps_instance.py:43-45 | a rank below the planned total implies a positive number of processes per node, so the remainder is well defined |
| PsInstance.NodeType | python/paddle/fluid/distributed/ps_instance.py:35-52 | the role is always worker, server or idle, and idle exactly when the mode is neither 0 nor 1 or the rank is past the planned total |
| PsInstance.OneRole | python/paddle/fluid/distributed/ps_instance.py:76-80 | no rank is both worker and server, and a rank is idle exactly when it is neither |
| PsInstance.ModeZeroPrefix | python/paddle/fluid/distributed/ps_instance.py:36-42 | in mode 0 the first `n` planned ranks are workers up to `_server_num` and servers after it |
| PsInstance.ModeZeroCounts | python/paddle/fluid/distributed/ps_instance.py:26-42 | mode 0 assigns exactly `_worker_num` workers and `_server_num` servers |
| PsInstance.ModeOnePairs | python/paddle/fluid/distributed/ps_instance.py:43-50 | in mode 1 with an even number of processes per node, each pair of consecutive ranks is one server and one worker |
| PsInstance.ModeOneEvenCounts | python/paddle/fluid/distributed/ps_instance.py:26-50 | mode 1 with an even number of processes per node assigns exactly `_worker_num` workers and `_server_num` servers |
| PsInstance.ModeOneOddUnbalanced | python/paddle/fluid/distributed/ps_instance.py:26-50 | with an odd number of processes per node the counts need not match: size 3 with 3 processes per node plans 4 and 4 but assigns 3 workers and 5 servers |

## Left out

- File opening, pipe commands and `fs_open_read`: a file is a sequence of lines, and an unopenable file is a missing map entry.
- `LineFileReader` and `getline`: these are I/O.
- The stream reader (`ReadThread`) does `CHECK(fp_ != nullptr)`; `LoadIntoMemory` has no such check and would dereference a null stream. Both are modelled as `Err(CannotOpen)`.
- Threads, the mutex and the detached reader: interleavings collapse to one order, as described above. The queue's capacity (blocking `Send`) does not change what is received, so it is not modelled.
- Characters inside a token: conversions consume whole tokens. C's splitting of a token such as `2.5` read by `strtol`, or `5-3`, is not modelled. The character-level skip of `PipeSkip` covers lines of single-space-separated words only.
- `strtof` results: float values are opaque. Only whether a token converts and whether it overflows to infinity is modelled.
- `errno` as global state: each conversion reports its own `ERANGE` bit.
- ParseInstance.SkipUnused: when the last search of a skip runs off the line, `pos` stays -1. Reading a further count from `str[-1]` is undefined behaviour, reported as `LineOverrun`. Earlier searches that run off the line are modelled: the next search restarts at the beginning of the line.
- ParseInstance.SkipUnused: a count of `INT_MAX` is not skipped. The source's `for (int j = 0; j <= num; ++j)` overflows `j` there, which is undefined behaviour; the parser reports `SkipCounterOverflow` instead. The same applies to `PipeSkip.SkipUnusedChars` and `PipeSkip.SkipAsWritten`, which require a smaller count.
- ParseInstance.SkipUnused: the skip counts one space per token. This matches `find_first_of(' ')` only when tokens are separated by single spaces. With two spaces, or a tab, between tokens the source stops at the extra space and reads a different count (on `1  5 1 9` the used slot of `SkipThenRead` gets `[1, 9, 0, 0, 0]` where the model gives `[9]`). A trailing tab is likewise treated as a space.
- Types other than "float" and "uint64" for a used slot: the parser aborts with `UnknownSlotType`, on the assumption that `MultiSlotType::Init` in `data_feed.h` (not part of this model) rejects them. Without that abort the source would read a type beginning with `f` as float and one beginning with `u` as uint64, since it tests only the first letter, and read no values for any other type.
- The parser used by the feeds is the corrected `ParseOneInstance` skip. The `ParseOneInstanceFromPipe` skip as written is modelled separately in `PipeSkip` (see Findings).
- `MultiSlotType::AddIns` type check (in `data_feed.h`, which is not part of this model): batches are required to conform to `tys` instead.
- Batch.FeedSlot: the `memcpy` counts `total_instance` elements as an `int`. A total above `INT_MAX` wraps in the dims, and the copy of such a slot is not modelled.
- The existence of the two channels (`CHECK(in_channel != nullptr)`): they are assumed to exist.
- InMemoryFeed.LocalShuffle: `std::rand()` values are a parameter. The contract states the permutation, not the distribution.
- `GlobalShuffle`, which is commented out, and the empty `SerializeIns`/`DeserializeIns` stubs.
- `AddFeedVar`: it binds framework variables.
- Tensor allocation (`mutable_data`, `Resize`, `set_lod`): a `Tensor` value records dims, data and lod.
- `GetExpectedKernelType` and operator registration in `cvm_op.cc`.
- CvmShape.InferShape: `int64` dimension arithmetic is unbounded here, so `x_dims[1] - 2` never wraps.
- MPI calls in `ps_instance.py` (`get_rank`, `get_size`, `Split`, barriers, `allgather`): rank and size are parameters.
- `get_worker_index` and `get_server_index`: they read attributes that do not exist.
- `_split_comm`, `set_ip`, `get_ip` and the rest of `ps_instance.py`, as well as `helper.py`: MPI and socket wrappers.
- PsInstance counting lemmas: they count over ranks `0 .. total - 1` of the plan. The source takes `_nodes` from the MPI world size, so a real run holds fewer ranks than the plan whenever `proc_per_node > 1`.

## Findings

| source | as written | input that shows it | evidently intended | confidence | as-written member | corrected member |
|---|---|---|---|---|---|---|
| paddle/fluid/framework/data_feed.cc:326-346 | the `long` count is stored in an `int` before the `num > INT_MAX` test, which can then never hold | one `uint64` slot, line `4294967297 7`: the count narrows to 1 and the line passes | reject counts above `INT_MAX` | high, not executed | CheckFile.WrappedCountAccepted | CheckFile.CheckLine (proved in CheckFile.AcceptedLineIsEncoding) |
| paddle/fluid/framework/data_feed.cc:357-379 | a missing value is only noticed before the last value and when no whitespace follows | one `uint64` slot, line `1`, or line `2 7` ending in a tab: both pass | reject a slot with fewer values than its count | high, not executed | CheckFile.MissingValueAccepted | CheckFile.CheckLine (proved in CheckFile.AcceptedLineIsEncoding) |
| paddle/fluid/framework/data_feed.cc:450-455 | `while (line[pos + 1] != ' ') pos++;` stops before a space and never passes it, so the unused slot is not skipped (same at lines 626-631) | line `1 5 1 9`, first slot unused: the next count is read from the first slot's count and the used slot gets 5 instead of 9 | `pos = line.find_first_of(' ', pos + 1)`, the commented-out line that `ParseOneInstance` uses | high, not executed | PipeSkip.SkipAsWrittenStaysOnCount | PipeSkip.SkipLandsBeforeNextCount |

=== FILE: batch.dfy ===
/** Batch assembly, shared verbatim by both multi-slot feeds:
    `AddInstanceToInsVec` folds the instances of one batch into one
    accumulator per used slot, and `PutToFeedVec` turns each accumulator into
    the tensor the trainer reads -- the slot's values as a `[total, 1]`
    tensor whose level of detail is the accumulator's offsets, reshaped to
    `[batch, total / batch]` for a dense slot.

    `uint64` values are stored into an `int64_t` tensor by `memcpy`, which
    reinterprets their bits; the model keeps that reinterpretation explicit.
 */
module Batch {

  import opened CInt
  import opened Lines
  import opened MultiSlotType
  import opened FeedSchema
  import opened ParseInstance

  /** `inst` has one record per used slot, each of the type `tys` gives it and
      holding only values of that type. */
  predicate Conforms(tys: seq<SlotType>, inst: Instance) {
    |inst| == |tys| && forall k :: 0 <= k < |inst| ==> inst[k].slotType == tys[k] && inst[k].WellTyped()
  }

  /** `v` is an `ins_vec` under construction: one well-typed accumulator per
      used slot, of the type `tys` gives it. */
  predicate Accumulators(tys: seq<SlotType>, v: seq<MultiSlot>) {
    |v| == |tys| && forall k :: 0 <= k < |v| ==> v[k].IsAccumulator() && v[k].WellTyped() && v[k].slotType == tys[k]
  }

  /** The slot types of an instance, in used-slot order. */
  function SlotTypes(inst: Instance): seq<SlotType> {
    seq(|inst|, k requires 0 <= k < |inst| => inst[k].slotType)
  }

  /** `AddInstanceToInsVec(ins_vec, instance, index)`: the first instance of
      a batch (`index` 0) starts a fresh accumulator of each record's type,
      then every slot's accumulator gets the instance's record as one more
      segment.  Earlier segments are kept. */
  function AddInstanceToInsVec(tys: seq<SlotType>, v: seq<MultiSlot>, inst: Instance, index: nat): (r: seq<MultiSlot>)
    requires Conforms(tys, inst)
    requires index != 0 ==> Accumulators(tys, v)
    ensures Accumulators(tys, r)
    ensures forall k :: 0 <= k < |r| ==>
              && r[k].Count() == (if index == 0 then 0 else v[k].Count()) + 1
              && r[k].Segment(r[k].Count() - 1) == inst[k].values
              && r[k].values == (if index == 0 then [] else v[k].values) + inst[k].values
    ensures index != 0 ==> forall k, n :: 0 <= k < |r| && 0 <= n < v[k].Count() ==> r[k].Segment(n) == v[k].Segment(n)
  {
    var base := if index == 0 then seq(|inst|, k requires 0 <= k < |inst| => NewAccumulator(inst[k].slotType)) else v;
    assert forall k :: 0 <= k < |inst| ==> base[k].IsAccumulator() && base[k].WellTyped() && base[k].slotType == inst[k].slotType;
    seq(|inst|, k requires 0 <= k < |inst| => AddIns(base[k], inst[k]))
  }

  /** The values of used slot `k` over a run of instances, one after the
      other. */
  function Column(batch: seq<Instance>, k: nat): seq<Feasign>
    requires forall n :: 0 <= n < |batch| ==> k < |batch[n]|
  {
    if |batch| == 0 then [] else Column(batch[..|batch| - 1], k) + batch[|batch| - 1][k].values
  }

  /** The `ins_vec` after `AddInstanceToInsVec` has been called on each
      instance of a non-empty batch with `index` 0, 1, 2, ...: one
      accumulator per used slot, each counting the batch's instances. */
  function FoldBatch(tys: seq<SlotType>, batch: seq<Instance>): (r: seq<MultiSlot>)
    requires |batch| > 0 && forall n :: 0 <= n < |batch| ==> Conforms(tys, batch[n])
    ensures Accumulators(tys, r)
    ensures forall k :: 0 <= k < |r| ==> r[k].Count() == |batch|
    decreases |batch|
  {
    var last := |batch| - 1;
    if last == 0 then
      AddInstanceToInsVec(tys, [], batch[0], 0)
    else
      var front := batch[..last];
      assert forall n :: 0 <= n < last ==> front[n] == batch[n];
      AddInstanceToInsVec(tys, FoldBatch(tys, front), batch[last], last)
  }

  /** Slot `k` of a batch one instance longer is the front's accumulator
      with the last instance's record added. */
  lemma FoldBatchLast(tys: seq<SlotType>, batch: seq<Instance>, k: nat)
    requires |batch| > 1 && forall n :: 0 <= n < |batch| ==> Conforms(tys, batch[n])
    requires k < |tys|
    ensures var front := batch[..|batch| - 1];
            && (forall n :: 0 <= n < |front| ==> Conforms(tys, front[n]))
            && FoldBatch(tys, batch)[k] == AddIns(FoldBatch(tys, front)[k], batch[|batch| - 1][k])
  {
    var front := batch[..|batch| - 1];
    assert forall n :: 0 <= n < |front| ==> front[n] == batch[n];
  }

  /** Slot `k`'s accumulator after a batch holds the slot's column. */
  lemma {:induction false} FoldBatchColumn(tys: seq<SlotType>, batch: seq<Instance>, k: nat)
    requires |batch| > 0 && forall n :: 0 <= n < |batch| ==> Conforms(tys, batch[n])
    requires k < |tys|
    ensures FoldBatch(tys, batch)[k].values == Column(batch, k)
    decreases |batch|
  {
    if |batch| > 1 {
      FoldBatchLast(tys, batch, k);
      FoldBatchColumn(tys, batch[..|batch| - 1], k);
    }
  }

  /** The `n`-th segment of slot `k`'s accumulator is exactly the `n`-th
      instance's record. */
  lemma {:induction false} FoldBatchSegment(tys: seq<SlotType>, batch: seq<Instance>, k: nat, n: nat)
    requires |batch| > 0 && forall i :: 0 <= i < |batch| ==> Conforms(tys, batch[i])
    requires k < |tys| && n < |batch|
    ensures FoldBatch(tys, batch)[k].Segment(n) == batch[n][k].values
    decreases |batch|
  {
    if |batch| > 1 {
      var front := batch[..|batch| - 1];
      FoldBatchLast(tys, batch, k);
      if n < |front| {
        FoldBatchSegment(tys, front, k, n);
        assert front[n] == batch[n];
      }
    }
  }

  /** Slot `k`'s accumulator after a batch holds the slot's column, and its
      `n`-th segment is exactly the `n`-th instance's record. */
  lemma FoldBatchHoldsBatch(tys: seq<SlotType>, batch: seq<Instance>, k: nat)
    requires |batch| > 0 && forall n :: 0 <= n < |batch| ==> Conforms(tys, batch[n])
    requires k < |tys|
    ensures var m := FoldBatch(tys, batch)[k];
            && m.values == Column(batch, k)
            && forall n :: 0 <= n < |batch| ==> m.Segment(n) == batch[n][k].values
  {
    FoldBatchColumn(tys, batch, k);
    forall n | 0 <= n < |batch|
      ensures FoldBatch(tys, batch)[k].Segment(n) == batch[n][k].values
    {
      FoldBatchSegment(tys, batch, k, n);
    }
  }

  /** How many instances one `Next` call takes when `available` are there
      to take: it stops when the batch is full or nothing is left, and takes
      none at all when the batch size is not positive. */
  function BatchCount(batchSize: int, available: nat): (n: nat)
    ensures n <= available
    ensures batchSize <= 0 ==> n == 0
    ensures batchSize > 0 ==> n <= batchSize && (n < batchSize ==> n == available)
  {
    if batchSize <= 0 then 0 else if batchSize < available then batchSize else available
  }

  /** The instances one `Next` call receives from a first-in first-out
      queue holding `queue`, and those still queued after it. */
  function TakeBatch(batchSize: int, queue: seq<Instance>): (r: (seq<Instance>, seq<Instance>))
    ensures r.0 + r.1 == queue
    ensures |r.0| == BatchCount(batchSize, |queue|)
  {
    var n := BatchCount(batchSize, |queue|);
    assert queue[..n] + queue[n..] == queue;
    (queue[..n], queue[n..])
  }

  /** The batches successive `Next` calls receive from `queue`, up to the
      first call that receives nothing. */
  function Drain(batchSize: int, queue: seq<Instance>): seq<seq<Instance>>
    decreases |queue|
  {
    var (batch, rest) := TakeBatch(batchSize, queue);
    if |batch| == 0 then [] else [batch] + Drain(batchSize, rest)
  }

  /** All the batches of `bs`, one after the other. */
  function Concat(bs: seq<seq<Instance>>): seq<Instance> {
    if |bs| == 0 then [] else bs[0] + Concat(bs[1..])
  }

  /** With a positive batch size, successive `Next` calls hand out every
      queued instance exactly once and in order, in full batches except
      possibly the last, before the first call that returns zero. */
  lemma {:induction false} DrainDeliversQueue(batchSize: int, queue: seq<Instance>)
    requires batchSize > 0
    ensures var bs := Drain(batchSize, queue);
            && Concat(bs) == queue
            && (forall i :: 0 <= i < |bs| ==> 0 < |bs[i]| <= batchSize)
            && (forall i :: 0 <= i < |bs| - 1 ==> |bs[i]| == batchSize)
    decreases |queue|
  {
    var (batch, rest) := TakeBatch(batchSize, queue);
    if |batch| > 0 {
      DrainDeliversQueue(batchSize, rest);
      var bs := Drain(batchSize, queue);
      assert bs == [batch] + Drain(batchSize, rest);
      assert bs[1..] == Drain(batchSize, rest);
    }
  }

  /** The element type of a feed tensor: `float`, or `int64_t` holding the
      bits of a `uint64` value. */
  datatype FeedData = FloatData(floats: seq<Float32>) | Int64Data(ints: seq<Int64>)

  /** A feed variable's tensor as `PutToFeedVec` leaves it: its dimensions,
      its data, and its level-of-detail table. */
  datatype Tensor = Tensor(dims: seq<int>, data: FeedData, lod: seq<seq<nat>>)

  /** The values a tensor's data stands for, reading `int64_t` bits back as
      `uint64`. */
  function Feasigns(d: FeedData): seq<Feasign> {
    match d
    case FloatData(fs) => seq(|fs|, j requires 0 <= j < |fs| => FloatValue(fs[j]))
    case Int64Data(xs) => seq(|xs|, j requires 0 <= j < |xs| => Uint64Value(ReinterpretAsUint64(xs[j])))
  }

  /** The tensor of one used slot.  The total is the last offset cast to
      `int`; a dense slot is reshaped to `[batch, total / batch]` with C's
      truncating division. */
  function FeedSlot(m: MultiSlot, dense: bool, batchSize: int): (t: Tensor)
    requires m.IsAccumulator() && m.WellTyped() && batchSize > 0
    ensures t.lod == [m.offset]
    ensures Feasigns(t.data) == m.values
    ensures t.data.FloatData? <==> m.slotType == Float
    ensures |t.dims| == 2
    ensures !dense ==> t.dims == [WrapInt32(|m.values|), 1]
    ensures dense ==> t.dims[0] == batchSize
    ensures dense && |m.values| <= INT_MAX ==> t.dims[1] * batchSize <= |m.values| < (t.dims[1] + 1) * batchSize
  {
    var total := WrapInt32(m.offset[|m.offset| - 1]);
    var data := match m.slotType
      case Float => FloatData(seq(|m.values|, j requires 0 <= j < |m.values| => m.values[j].f))
      case Uint64 => Int64Data(seq(|m.values|, j requires 0 <= j < |m.values| => ReinterpretAsInt64(m.values[j].u)));
    assert Feasigns(data) == m.values by {
      forall j | 0 <= j < |m.values| ensures Feasigns(data)[j] == m.values[j] {
        if m.slotType == Uint64 {
          ReinterpretRoundTrip(m.values[j].u, 0);
        }
      }
    }
    Tensor(if dense then [batchSize, TruncDiv(total, batchSize)] else [total, 1], data, [m.offset])
  }

  /** `PutToFeedVec(ins_vec)` with `batch_size_` set to `batchSize`: one
      tensor per used slot. */
  function PutToFeedVec(tys: seq<SlotType>, v: seq<MultiSlot>, dense: seq<bool>, batchSize: int): (ts: seq<Tensor>)
    requires Accumulators(tys, v) && |dense| == |v| && batchSize > 0
    ensures |ts| == |v|
    ensures forall k :: 0 <= k < |v| ==> ts[k] == FeedSlot(v[k], dense[k], batchSize)
  {
    seq(|v|, k requires 0 <= k < |v| => FeedSlot(v[k], dense[k], batchSize))
  }

  /** What the trainer reads back from one batch: for every used slot `k` and
      every instance `n`, the slot's tensor holds that instance's values
      between the `n`-th and the next level-of-detail boundary. */
  lemma BatchReadsBack(tys: seq<SlotType>, batch: seq<Instance>, dense: seq<bool>, k: nat, n: nat)
    requires |batch| > 0 && forall i :: 0 <= i < |batch| ==> Conforms(tys, batch[i])
    requires |dense| == |tys| && k < |tys| && n < |batch|
    ensures var t := PutToFeedVec(tys, FoldBatch(tys, batch), dense, |batch|)[k];
            var values := Feasigns(t.data);
            && |t.lod| == 1 && |t.lod[0]| == |batch| + 1
            && t.lod[0][0] == 0 && t.lod[0][|batch|] == |values|
            && t.lod[0][n] <= t.lod[0][n + 1] <= |values|
            && values[t.lod[0][n]..t.lod[0][n + 1]] == batch[n][k].values
  {
    var m := FoldBatch(tys, batch)[k];
    FoldBatchHoldsBatch(tys, batch, k);
    OffsetsBounded(m, n);
    OffsetsBounded(m, n + 1);
    assert m.Segment(n) == batch[n][k].values;
  }

  /** A dense slot whose every instance holds `d` values (a fixed-width
      feature) comes out shaped `[batch, d]`, as long as the batch's total
      fits in an `int`. */
  lemma DenseShape(tys: seq<SlotType>, batch: seq<Instance>, dense: seq<bool>, k: nat, d: nat)
    requires |batch| > 0 && forall i :: 0 <= i < |batch| ==> Conforms(tys, batch[i])
    requires |dense| == |tys| && k < |tys| && dense[k]
    requires forall i :: 0 <= i < |batch| ==> |batch[i]| == |tys| && |batch[i][k].values| == d
    requires |batch| * d <= INT_MAX
    ensures PutToFeedVec(tys, FoldBatch(tys, batch), dense, |batch|)[k].dims == [|batch|, d]
  {
    FoldBatchHoldsBatch(tys, batch, k);
    ColumnLength(batch, k, d);
    TruncDivExact(|batch|, d);
  }

  /** A column of equal-width records is `d` values per instance long. */
  lemma {:induction false} ColumnLength(batch: seq<Instance>, k: nat, d: nat)
    requires forall i :: 0 <= i < |batch| ==> k < |batch[i]| && |batch[i][k].values| == d
    ensures |Column(batch, k)| == |batch| * d
    decreases |batch|
  {
    if |batch| > 0 {
      var front := batch[..|batch| - 1];
      assert forall i :: 0 <= i < |front| ==> front[i] == batch[i];
      ColumnLength(front, k, d);
      assert |batch| * d == (|batch| - 1) * d + d;
    }
  }

  /** Any two lines the parser accepts under one schema yield instances of
      the same slot types, so the instances of a file, or of several files,
      can be batched together. */
  lemma ParsedInstancesConform(s: Schema, a: Line, b: Line)
    requires ValidSchema(s) && ParseLine(s, a).Ok? && ParseLine(s, b).Ok?
    ensures Conforms(SlotTypes(ParseLine(s, a).value), ParseLine(s, b).value)
  {
    var ra := ParseLine(s, a).value;
    var rb := ParseLine(s, b).value;
    forall k | 0 <= k < |rb| ensures rb[k].slotType == SlotTypes(ra)[k] && rb[k].WellTyped() {
      UsedIndexOnto(s, k);
      var i :| 0 <= i < |s.useSlotsIndex| && s.useSlotsIndex[i] == k;
      assert RecordFits(s, ra, i) && RecordFits(s, rb, i);
    }
  }
}

=== FILE: c_int.dfy ===
/** The fixed-width C/C++ integer behaviour the data feed relies on, written
    out over unbounded integers: the range of `int`, `long` and `uint64_t`,
    the clamping `strtol`/`strtoull` perform on overflow, the narrowing of a
    `long` into an `int` (two's complement, as GCC defines it), and the
    reinterpretation of a `uint64_t` as an `int64_t` that a `memcpy` between
    the two performs.
 */
module CInt {

  const INT_MIN: int := -0x8000_0000
  const INT_MAX: int := 0x7fff_ffff
  const LONG_MIN: int := -0x8000_0000_0000_0000
  const LONG_MAX: int := 0x7fff_ffff_ffff_ffff
  const ULLONG_MAX: int := 0xffff_ffff_ffff_ffff

  const TWO_32: int := 0x1_0000_0000
  const TWO_64: int := 0x1_0000_0000_0000_0000

  type Int32 = x: int | INT_MIN <= x <= INT_MAX
  type Int64 = x: int | LONG_MIN <= x <= LONG_MAX
  type U64 = x: int | 0 <= x <= ULLONG_MAX

  predicate InLongRange(v: int) {
    LONG_MIN <= v <= LONG_MAX
  }

  /** The `long` that `strtol` returns for the decimal literal `v`: the value
      itself when it is representable, otherwise `LONG_MAX`/`LONG_MIN` (and
      `errno` becomes `ERANGE`). */
  function SaturateLong(v: int): (r: Int64)
    ensures InLongRange(v) ==> r == v
    ensures v > LONG_MAX ==> r == LONG_MAX
    ensures v < LONG_MIN ==> r == LONG_MIN
  {
    if v > LONG_MAX then LONG_MAX else if v < LONG_MIN then LONG_MIN else v
  }

  /** How far apart two integers lie. */
  function Distance(a: int, b: int): nat {
    if a >= b then a - b else b - a
  }

  /** The saturated value is the `long` nearest to the literal: no `long`
      lies closer to it. */
  lemma SaturateLongNearest(v: int, w: int)
    requires InLongRange(w)
    ensures Distance(v, SaturateLong(v)) <= Distance(v, w)
    ensures Distance(v, SaturateLong(v)) == Distance(v, w) ==> w == SaturateLong(v)
  {
  }

  /** `int num = <long>`: keeps the low 32 bits, read as two's complement. */
  function WrapInt32(v: int): (r: Int32)
    ensures (r - v) % TWO_32 == 0
    ensures INT_MIN <= v <= INT_MAX ==> r == v
  {
    var low := (v - INT_MIN) % TWO_32;
    assert INT_MIN <= v <= INT_MAX ==> low == v - INT_MIN;
    low + INT_MIN
  }

  /** True when `strtoull` reports `ERANGE` for the decimal literal `v`: its
      magnitude does not fit in 64 bits (a leading minus sign is accepted and
      negates the magnitude in unsigned arithmetic). */
  predicate UllongOverflows(v: int) {
    v > ULLONG_MAX || v < -ULLONG_MAX
  }

  /** The `unsigned long long` that `strtoull` returns for the literal `v`. */
  function StrtoullValue(v: int): (r: U64)
    ensures UllongOverflows(v) ==> r == ULLONG_MAX
    ensures !UllongOverflows(v) ==> (r - v) % TWO_64 == 0
    ensures 0 <= v <= ULLONG_MAX ==> r == v
  {
    if UllongOverflows(v) then ULLONG_MAX else v % TWO_64
  }

  /** The `int64_t` a `memcpy` of the `uint64_t` `u` produces. */
  function ReinterpretAsInt64(u: U64): (r: Int64)
    ensures (r - u) % TWO_64 == 0
    ensures u <= LONG_MAX ==> r == u
    ensures u > LONG_MAX ==> r < 0
  {
    if u > LONG_MAX then u - TWO_64 else u
  }

  /** C's `int` division by a positive divisor, which truncates toward zero:
      the remainder is smaller than the divisor in magnitude and never has
      the opposite sign of the dividend. */
  function TruncDiv(a: int, b: int): (q: int)
    requires b > 0
    ensures var rem := a - q * b; -b < rem < b && (a >= 0 ==> rem >= 0) && (a <= 0 ==> rem <= 0)
  {
    if a >= 0 then a / b else -((-a) / b)
  }

  /** Exact division: a multiple of the divisor divides back to its factor. */
  lemma TruncDivExact(b: int, d: int)
    requires b > 0
    ensures TruncDiv(b * d, b) == d
  {
    var q := TruncDiv(b * d, b);
    assert b * d - q * b == b * (d - q);
    SmallMultipleIsZero(b, d - q);
  }

  /** The only multiple of `b` strictly between `-b` and `b` is zero. */
  lemma SmallMultipleIsZero(b: int, k: int)
    requires b > 0 && -b < b * k < b
    ensures k == 0
  {
    if k > 0 {
      PositiveMultipleAtLeast(b, k);
    } else if k < 0 {
      PositiveMultipleAtLeast(b, -k);
    }
  }

  /** A positive multiple of a positive `b` is at least `b`. */
  lemma {:induction false} PositiveMultipleAtLeast(b: int, k: int)
    requires b > 0 && k >= 1
    ensures b * k >= b
    decreases k
  {
    if k > 1 {
      PositiveMultipleAtLeast(b, k - 1);
      assert b * k == b * (k - 1) + b;
    }
  }

  /** The reverse reinterpretation, from `int64_t` bits back to `uint64_t`. */
  function ReinterpretAsUint64(i: Int64): (r: U64)
    ensures (r - i) % TWO_64 == 0
  {
    i % TWO_64
  }

  /** No information is lost: the two reinterpretations are mutually inverse. */
  lemma ReinterpretRoundTrip(u: U64, i: Int64)
    ensures ReinterpretAsUint64(ReinterpretAsInt64(u)) == u
    ensures ReinterpretAsInt64(ReinterpretAsUint64(i)) == i
  {
  }
}

=== FILE: check_file.dfy ===
/** The line-format validator `MultiSlotDataFeed::CheckFile`, twice: exactly
    as written, and with its two defects corrected.

    As written, (1) the count is narrowed into an `int` before it is compared
    with `INT_MAX`, so that comparison can never succeed and a count such as
    4294967297 passes as 1; and (2) a missing value is only noticed when the
    line ends, without trailing whitespace, before the slot's last value, so
    a line that stops one value short, or ends in whitespace, passes.  The
    corrected validator compares the `long` count and rejects any value that
    cannot be read; it accepts exactly the encodings of well-formed rows.
 */
module CheckFile {

  import opened Results
  import opened CInt
  import opened Lines
  import FeedSchema

  /** The diagnostics `CheckFile` logs before returning false. */
  datatype Reason =
    | CannotOpen
    | NegativeCount
    | ZeroCount
    | CountTooLarge
    | ValueOutOfRange
    | MissingValues
    | UnsupportedType(typeName: string)
    | TrailingCharacters

  datatype Verdict = Pass | Fail(reason: Reason)

  /** Progress through one slot's values: the token index reached, or why
      the line was rejected. */
  datatype Scan = Scanned(next: nat) | Rejected(reason: Reason)

  /** After the last slot only whitespace may remain on the line. */
  function Trailing(line: Line, p: nat): (v: Verdict)
    ensures v == Pass <==> p >= |line.tokens|
  {
    if p >= |line.tokens| then Pass else Fail(TrailingCharacters)
  }

  // ---------------------------------------------------------------------
  // As written

  /** Reads the `num` values of one slot, `j` of them already read. */
  function ScanValuesAsWritten(line: Line, ty: SlotType, p: nat, j: nat, num: int): Scan
    decreases num - j
  {
    if j >= num then Scanned(p)
    else
      var c := Convert(ty, line.tokens, p);
      if c.erange then Rejected(ValueOutOfRange)
      else if j + 1 != num && AtEnd(line, c.next) then Rejected(MissingValues)
      else ScanValuesAsWritten(line, ty, c.next, j + 1, num)
  }

  function CheckSlotsAsWritten(types: seq<string>, line: Line, i: nat, p: nat): Verdict
    requires i <= |types|
    decreases |types| - i
  {
    if i == |types| then Trailing(line, p)
    else
      var c := Strtol(line.tokens, p);
      var num := WrapInt32(c.value);
      if num < 0 then Fail(NegativeCount)
      else if num == 0 then Fail(ZeroCount)
      else if c.erange || num > INT_MAX then Fail(CountTooLarge)
      else
        match TypeOf(types[i])
        case None => Fail(UnsupportedType(types[i]))
        case Some(ty) =>
          match ScanValuesAsWritten(line, ty, c.next, 0, num)
          case Rejected(why) => Fail(why)
          case Scanned(q) => CheckSlotsAsWritten(types, line, i + 1, q)
  }

  /** One line of `CheckFile` as written, for the schema's type names. */
  function CheckLineAsWritten(types: seq<string>, line: Line): Verdict {
    CheckSlotsAsWritten(types, line, 0, 0)
  }

  /** `CheckFile` of feed `f` on the lines of a file, or on a file that
      cannot be opened (`None`): `CheckInit` aborts unless `Init` succeeded;
      otherwise the verdict is true exactly when the file opens and every
      line passes the check as written for the schema's slot types. */
  function CheckFile(f: FeedSchema.DataFeed, file: Option<seq<Line>>): (r: Result<bool, FeedSchema.Fault>)
    ensures !f.initDone ==> r == Err(FeedSchema.NotInitialized)
    ensures f.initDone ==> r.Ok? && (r.value <==> file.Some? && forall k :: 0 <= k < |file.value| ==> CheckLineAsWritten(f.schema.allSlotsType, file.value[k]) == Pass)
  {
    if !f.initDone then Err(FeedSchema.NotInitialized)
    else Ok(file.Some? && CheckLines(f.schema.allSlotsType, file.value))
  }

  /** Checks lines in order and stops at the first one that fails. */
  function CheckLines(types: seq<string>, lines: seq<Line>): (ok: bool)
    ensures ok <==> forall k :: 0 <= k < |lines| ==> CheckLineAsWritten(types, lines[k]) == Pass
  {
    if |lines| == 0 then true
    else if CheckLineAsWritten(types, lines[0]) != Pass then false
    else
      var ok := CheckLines(types, lines[1..]);
      assert forall k :: 1 <= k < |lines| ==> lines[k] == lines[1..][k - 1];
      ok
  }

  /** As written, the values of a well-formed group are read one token each;
      the line never ends before the group's last value. */
  lemma {:induction false} ScanValuesAsWrittenOnGroup(line: Line, ty: SlotType, p: nat, g: seq<Token>, j: nat)
    requires p + |g| <= |line.tokens| && line.tokens[p..p + |g|] == g && j <= |g|
    requires forall k :: 0 <= k < |g| ==> Fits(ty, g[k])
    ensures ScanValuesAsWritten(line, ty, p + j, j, |g|) == Scanned(p + |g|)
    decreases |g| - j
  {
    if j < |g| {
      var t := line.tokens;
      assert t[p + j] == g[j] by { assert t[p..p + |g|][j] == t[p + j]; }
      ConvertLocal(ty, t, p + j);
      ScanValuesAsWrittenOnGroup(line, ty, p, g, j + 1);
    }
  }

  /** As written, one well-formed group, count first, takes the check to the
      next slot. */
  lemma CheckSlotsAsWrittenStep(types: seq<string>, line: Line, i: nat, p: nat, g: seq<Token>)
    requires i < |types| && p + 1 + |g| <= |line.tokens|
    requires line.tokens[p] == IntLit(|g|) && line.tokens[p + 1..p + 1 + |g|] == g
    requires WellFormedGroup(types[i], g)
    ensures CheckSlotsAsWritten(types, line, i, p) == CheckSlotsAsWritten(types, line, i + 1, p + 1 + |g|)
  {
    assert Strtol(line.tokens, p) == Conv(|g|, p + 1, false);
    assert WrapInt32(|g|) == |g|;
    ScanValuesAsWrittenOnGroup(line, TypeOf(types[i]).value, p + 1, g, 0);
  }

  /** As written, checking well-formed groups laid out at token `p` for the
      slots `i .. j` ends up at the first token `e` after them, at slot `j`. */
  lemma {:induction false} CheckSlotsAsWrittenSkipsEncoding(types: seq<string>, line: Line, i: nat, p: nat, pre: seq<seq<Token>>, j: nat, e: nat)
    requires RowFitsAt(types, i, pre) && EncodedAt(line.tokens, p, pre)
    requires j == i + |pre| && e == p + |Encode(pre)|
    ensures j <= |types| && e <= |line.tokens|
    ensures CheckSlotsAsWritten(types, line, i, p) == CheckSlotsAsWritten(types, line, j, e)
    decreases |pre|
  {
    if |pre| > 0 {
      EncodeLength(pre);
      CheckSlotsAsWrittenStep(types, line, i, p, pre[0]);
      CheckSlotsAsWrittenSkipsEncoding(types, line, i + 1, p + 1 + |pre[0]|, pre[1..], j, e);
    }
  }

  /** Finding (1): a count of 2^32 + 1 narrows to 1, so a single-value slot
      with that count passes, although the count exceeds `INT_MAX`; the
      corrected validator rejects it. */
  lemma WrappedCountAccepted()
    ensures CheckLineAsWritten(["uint64"], Line([IntLit(TWO_32 + 1), IntLit(7)], false)) == Pass
    ensures CheckLine(["uint64"], Line([IntLit(TWO_32 + 1), IntLit(7)], false)) == Fail(CountTooLarge)
  {
    assert WrapInt32(TWO_32 + 1) == 1;
  }

  /** The float overflow band: a value rounding to infinity (here 2^128 -
      2^100, above the halfway point 2^128 - 2^103) is rejected by both
      validators, while `FLT_MAX` itself passes. */
  lemma FloatOverflowRejected()
    ensures CheckLineAsWritten(["float"], Line([IntLit(1), IntLit(TWO_128 - 0x10_0000_0000_0000_0000_0000_0000)], false)) == Fail(ValueOutOfRange)
    ensures CheckLine(["float"], Line([IntLit(1), IntLit(TWO_128 - 0x10_0000_0000_0000_0000_0000_0000)], false)) == Fail(ValueOutOfRange)
    ensures CheckLineAsWritten(["float"], Line([IntLit(1), IntLit(FLT_MAX)], false)) == Pass
    ensures CheckLine(["float"], Line([IntLit(1), IntLit(FLT_MAX)], false)) == Pass
  {
  }

  /** Finding (2): a slot declaring one value but carrying none passes, and so
      does a slot one value short when the line ends in whitespace (the
      trailing tab a Hadoop reducer adds); the same line without the trailing
      whitespace is rejected.  The corrected validator rejects all three. */
  lemma MissingValueAccepted()
    ensures CheckLineAsWritten(["uint64"], Line([IntLit(1)], false)) == Pass
    ensures CheckLineAsWritten(["uint64"], Line([IntLit(2), IntLit(7)], true)) == Pass
    ensures CheckLineAsWritten(["uint64"], Line([IntLit(2), IntLit(7)], false)) == Fail(MissingValues)
    ensures CheckLine(["uint64"], Line([IntLit(1)], false)) == Fail(MissingValues)
    ensures CheckLine(["uint64"], Line([IntLit(2), IntLit(7)], true)) == Fail(MissingValues)
  {
  }

  // ---------------------------------------------------------------------
  // Corrected

  /** Reads `n` more values of one slot; a value that cannot be read at all
      (nothing converted) is a missing value. */
  function ScanValues(line: Line, ty: SlotType, p: nat, n: nat): Scan
    decreases n
  {
    if n == 0 then Scanned(p)
    else
      var c := Convert(ty, line.tokens, p);
      if c.erange then Rejected(ValueOutOfRange)
      else if c.next == p then Rejected(MissingValues)
      else ScanValues(line, ty, c.next, n - 1)
  }

  /** Checks slot `i`, whose count is at token `p`: the count must lie in
      `[1, INT_MAX]`, the type must be known and every value readable. */
  function CheckSlot(types: seq<string>, line: Line, i: nat, p: nat): Scan
    requires i < |types|
  {
    var c := Strtol(line.tokens, p);
    if c.value < 0 then Rejected(NegativeCount)
    else if c.value == 0 then Rejected(ZeroCount)
    else if c.erange || c.value > INT_MAX then Rejected(CountTooLarge)
    else
      match TypeOf(types[i])
      case None => Rejected(UnsupportedType(types[i]))
      case Some(ty) => ScanValues(line, ty, c.next, c.value)
  }

  /** Checks slots `i ..`, the first count at token `p`, then the end of the line. */
  function CheckSlots(types: seq<string>, line: Line, i: nat, p: nat): Verdict
    requires i <= |types|
    decreases |types| - i
  {
    if i == |types| then Trailing(line, p)
    else
      match CheckSlot(types, line, i, p)
      case Rejected(why) => Fail(why)
      case Scanned(q) => CheckSlots(types, line, i + 1, q)
  }

  /** One line of `CheckFile`, for the schema's type names. */
  function CheckLine(types: seq<string>, line: Line): Verdict {
    CheckSlots(types, line, 0, 0)
  }

  /** The corrected check of a whole file: it opens and every line passes. */
  predicate CheckFileCorrected(types: seq<string>, file: Option<seq<Line>>) {
    file.Some? && forall k :: 0 <= k < |file.value| ==> CheckLine(types, file.value[k]) == Pass
  }

  // ---------------------------------------------------------------------
  // What the corrected validator accepts

  /** The values of a well-formed group are read one token each. */
  lemma {:induction false} ScanValuesOnGroup(line: Line, ty: SlotType, p: nat, g: seq<Token>)
    requires p + |g| <= |line.tokens| && line.tokens[p..p + |g|] == g
    requires forall k :: 0 <= k < |g| ==> Fits(ty, g[k])
    ensures ScanValues(line, ty, p, |g|) == Scanned(p + |g|)
    decreases |g|
  {
    if |g| > 0 {
      var t := line.tokens;
      assert t[p] == g[0] by { assert t[p..p + |g|][0] == t[p]; }
      ConvertLocal(ty, t, p);
      assert t[p + 1..p + |g|] == g[1..];
      ScanValuesOnGroup(line, ty, p + 1, g[1..]);
    }
  }

  /** One well-formed group, count first, takes the check to the next slot. */
  lemma CheckSlotsStep(types: seq<string>, line: Line, i: nat, p: nat, g: seq<Token>)
    requires i < |types| && p + 1 + |g| <= |line.tokens|
    requires line.tokens[p] == IntLit(|g|) && line.tokens[p + 1..p + 1 + |g|] == g
    requires WellFormedGroup(types[i], g)
    ensures CheckSlot(types, line, i, p) == Scanned(p + 1 + |g|)
    ensures CheckSlots(types, line, i, p) == CheckSlots(types, line, i + 1, p + 1 + |g|)
  {
    var ty := TypeOf(types[i]).value;
    assert Strtol(line.tokens, p) == Conv(|g|, p + 1, false);
    ScanValuesOnGroup(line, ty, p + 1, g);
  }

  /** A successful scan read `n` whole tokens, each fitting the slot type. */
  lemma {:induction false} ScannedValuesFit(line: Line, ty: SlotType, p: nat, n: nat)
    requires p <= |line.tokens| && ScanValues(line, ty, p, n).Scanned?
    ensures ScanValues(line, ty, p, n).next == p + n <= |line.tokens|
    ensures forall k :: p <= k < p + n ==> Fits(ty, line.tokens[k])
    decreases n
  {
    if n > 0 {
      var c := Convert(ty, line.tokens, p);
      ScannedValuesFit(line, ty, c.next, n - 1);
      ConvertLocal(ty, line.tokens, p);
    }
  }

  /** Checking well-formed groups laid out at token `p` for the slots
      `i .. j` (`j == i + |pre|`) ends up at the first token `e` after them,
      at slot `j`. */
  lemma {:induction false} CheckSlotsSkipsEncoding(types: seq<string>, line: Line, i: nat, p: nat, pre: seq<seq<Token>>, j: nat, e: nat)
    requires RowFitsAt(types, i, pre) && EncodedAt(line.tokens, p, pre)
    requires j == i + |pre| && e == p + |Encode(pre)|
    ensures j <= |types| && e <= |line.tokens|
    ensures CheckSlots(types, line, i, p) == CheckSlots(types, line, j, e)
    decreases |pre|
  {
    if |pre| > 0 {
      EncodeLength(pre);
      CheckSlotsStep(types, line, i, p, pre[0]);
      CheckSlotsSkipsEncoding(types, line, i + 1, p + 1 + |pre[0]|, pre[1..], j, e);
    }
  }

  /** Round trip, validator side: the encoding of a well-formed row passes,
      with or without trailing whitespace, and any further token after it is
      trailing garbage; the check as written and the corrected one agree on
      such lines. */
  lemma EncodingAccepted(types: seq<string>, row: seq<seq<Token>>, rest: seq<Token>, trailingSpace: bool)
    requires WellFormedRow(types, row)
    ensures CheckLineAsWritten(types, Line(Encode(row) + rest, trailingSpace))
            == if rest == [] then Pass else Fail(TrailingCharacters)
    ensures CheckLine(types, Line(Encode(row) + rest, trailingSpace))
            == if rest == [] then Pass else Fail(TrailingCharacters)
  {
    var line := Line(Encode(row) + rest, trailingSpace);
    assert line.tokens[0..] == Encode(row) + rest;
    EncodingLaidOut(line.tokens, 0, row, rest);
    RowFitsWhole(types, row);
    CheckSlotsSkipsEncoding(types, line, 0, 0, row, |row|, |Encode(row)|);
    CheckSlotsAsWrittenSkipsEncoding(types, line, 0, 0, row, |row|, |Encode(row)|);
  }

  /** The converse, for the corrected validator: a line it accepts from
      slot `i` on is the encoding of a well-formed row; in particular every count lies in `[1, INT_MAX]`, every
      type is known and every value is read whole and in range. */
  lemma {:induction false} AcceptedLineIsEncoding(types: seq<string>, line: Line, i: nat, p: nat) returns (row: seq<seq<Token>>)
    requires i <= |types| && p <= |line.tokens|
    requires CheckSlots(types, line, i, p) == Pass
    ensures WellFormedRow(types[i..], row)
    ensures line.tokens[p..] == Encode(row)
    decreases |types| - i
  {
    if i == |types| {
      row := [];
    } else {
      var g := AcceptedGroup(types, line, i, p);
      var more := AcceptedLineIsEncoding(types, line, i + 1, p + 1 + |g|);
      row := [g] + more;
      WellFormedRowCons(types, i, g, more);
      EncodeCons(line.tokens, p, g, more);
    }
  }

  /** A slot the validator accepts holds a well-formed group, count first. */
  lemma AcceptedGroup(types: seq<string>, line: Line, i: nat, p: nat) returns (g: seq<Token>)
    requires i < |types| && CheckSlot(types, line, i, p).Scanned?
    ensures CheckSlot(types, line, i, p).next == p + 1 + |g| <= |line.tokens|
    ensures line.tokens[p] == IntLit(|g|) && line.tokens[p + 1..p + 1 + |g|] == g
    ensures WellFormedGroup(types[i], g)
  {
    var t := line.tokens;
    var n: nat := Strtol(t, p).value;
    var ty := TypeOf(types[i]).value;
    ScannedValuesFit(line, ty, p + 1, n);
    g := t[p + 1..p + 1 + n];
    forall k | 0 <= k < |g| ensures Fits(ty, g[k]) {
      assert g[k] == t[p + 1 + k];
    }
  }

  /** Corollary for whole lines: a line the corrected validator accepts is
      exactly the encoding of a well-formed row. */
  lemma AcceptedLineDecodes(types: seq<string>, line: Line) returns (row: seq<seq<Token>>)
    requires CheckLine(types, line) == Pass
    ensures WellFormedRow(types, row) && line.tokens == Encode(row)
  {
    row := AcceptedLineIsEncoding(types, line, 0, 0);
    assert types[0..] == types;
    assert line.tokens[0..] == line.tokens;
  }

  /** A count of zero (or a count token that is not a number, which `strtol`
      reads as 0) for any slot, after well-formed earlier slots, rejects the
      line, as written and corrected. */
  lemma ZeroCountRejected(types: seq<string>, pre: seq<seq<Token>>, bad: Token, rest: seq<Token>, line: Line)
    requires |pre| < |types| && WellFormedRow(types[..|pre|], pre)
    requires bad == IntLit(0) || bad.Junk?
    requires line.tokens == Encode(pre) + [bad] + rest
    ensures CheckLineAsWritten(types, line) == Fail(ZeroCount)
    ensures CheckLine(types, line) == Fail(ZeroCount)
  {
    BadCountLaidOut(pre, bad, rest);
    RowFitsPrefix(types, pre);
    ZeroCountAfterGroups(types, line, pre);
  }

  /** The same, for groups laid out from token 0 and a zero count after them. */
  lemma ZeroCountAfterGroups(types: seq<string>, line: Line, pre: seq<seq<Token>>)
    requires |pre| < |types| && RowFitsAt(types, 0, pre) && EncodedAt(line.tokens, 0, pre)
    requires |Encode(pre)| < |line.tokens| && Strtol(line.tokens, |Encode(pre)|).value == 0
    ensures CheckLineAsWritten(types, line) == Fail(ZeroCount)
    ensures CheckLine(types, line) == Fail(ZeroCount)
  {
    CheckSlotsSkipsEncoding(types, line, 0, 0, pre, |pre|, |Encode(pre)|);
    CheckSlotsAsWrittenSkipsEncoding(types, line, 0, 0, pre, |pre|, |Encode(pre)|);
    CountZeroFails(types, line, |pre|, |Encode(pre)|);
  }

  /** A count `strtol` reads as zero fails the check at that slot. */
  lemma CountZeroFails(types: seq<string>, line: Line, i: nat, p: nat)
    requires i < |types| && Strtol(line.tokens, p).value == 0
    ensures CheckSlot(types, line, i, p) == Rejected(ZeroCount)
    ensures CheckSlots(types, line, i, p) == Fail(ZeroCount)
    ensures CheckSlotsAsWritten(types, line, i, p) == Fail(ZeroCount)
  {
  }

  /** A slot whose type is neither "float" nor "uint64", after well-formed
      earlier slots and with a count in `[1, INT_MAX]`, rejects the line with
      that type name, as written and corrected. */
  lemma UnknownTypeRejected(types: seq<string>, pre: seq<seq<Token>>, n: int, rest: seq<Token>, line: Line)
    requires |pre| < |types| && WellFormedRow(types[..|pre|], pre)
    requires types[|pre|] != "float" && types[|pre|] != "uint64"
    requires 1 <= n <= INT_MAX
    requires line.tokens == Encode(pre) + [IntLit(n)] + rest
    ensures CheckLineAsWritten(types, line) == Fail(UnsupportedType(types[|pre|]))
    ensures CheckLine(types, line) == Fail(UnsupportedType(types[|pre|]))
  {
    var e := |Encode(pre)|;
    CountLaidOut(line.tokens, pre, n, rest);
    RowFitsPrefix(types, pre);
    CheckSlotsSkipsEncoding(types, line, 0, 0, pre, |pre|, e);
    CheckSlotsAsWrittenSkipsEncoding(types, line, 0, 0, pre, |pre|, e);
    UnknownTypeFails(types, line, |pre|, e, n);
  }

  /** Groups followed by the count `n`: the groups are laid out from token 0
      and `strtol` reads `n` right after them. */
  lemma CountLaidOut(t: seq<Token>, pre: seq<seq<Token>>, n: int, rest: seq<Token>)
    requires 1 <= n <= INT_MAX && t == Encode(pre) + [IntLit(n)] + rest
    ensures EncodedAt(t, 0, pre) && Strtol(t, |Encode(pre)|) == Conv(n, |Encode(pre)| + 1, false)
  {
    assert t[0..] == Encode(pre) + ([IntLit(n)] + rest);
    EncodingLaidOut(t, 0, pre, [IntLit(n)] + rest);
    assert t[|Encode(pre)|] == IntLit(n);
  }

  /** A valid count for a slot of unknown type fails the check there. */
  lemma UnknownTypeFails(types: seq<string>, line: Line, i: nat, p: nat, n: int)
    requires i < |types| && types[i] != "float" && types[i] != "uint64"
    requires 1 <= n <= INT_MAX && Strtol(line.tokens, p) == Conv(n, p + 1, false)
    ensures CheckSlots(types, line, i, p) == Fail(UnsupportedType(types[i]))
    ensures CheckSlotsAsWritten(types, line, i, p) == Fail(UnsupportedType(types[i]))
  {
    assert WrapInt32(n) == n;
  }

  /** The two defects only widen what the validator accepts: a line the
      corrected check passes also passes as written (`WrappedCountAccepted`
      shows that the converse fails). */
  lemma CorrectedAcceptsLess(types: seq<string>, line: Line)
    requires CheckLine(types, line) == Pass
    ensures CheckLineAsWritten(types, line) == Pass
  {
    var row := AcceptedLineDecodes(types, line);
    assert line == Line(Encode(row) + [], line.trailingSpace);
    EncodingAccepted(types, row, [], line.trailingSpace);
  }

  /** The same for whole files: once the feed is initialised, a file the
      corrected check accepts passes `CheckFile`. */
  lemma CorrectedFileAcceptsLess(f: FeedSchema.DataFeed, file: Option<seq<Line>>)
    requires f.initDone && CheckFileCorrected(f.schema.allSlotsType, file)
    ensures CheckFile(f, file) == Ok(true)
  {
    var types := f.schema.allSlotsType;
    forall k | 0 <= k < |file.value| ensures CheckLineAsWritten(types, file.value[k]) == Pass {
      CorrectedAcceptsLess(types, file.value[k]);
    }
  }

  /** Trailing whitespace never changes the corrected verdict. */
  lemma {:induction false} TrailingSpaceIrrelevant(types: seq<string>, t: seq<Token>, i: nat, p: nat)
    requires i <= |types|
    ensures CheckSlots(types, Line(t, true), i, p) == CheckSlots(types, Line(t, false), i, p)
    decreases |types| - i
  {
    if i < |types| {
      var c := Strtol(t, p);
      if c.value > 0 && !c.erange && c.value <= INT_MAX && TypeOf(types[i]).Some? {
        ScanValuesIgnoresTrailingSpace(t, TypeOf(types[i]).value, c.next, c.value);
      }
      var s := CheckSlot(types, Line(t, true), i, p);
      if s.Scanned? {
        TrailingSpaceIrrelevant(types, t, i + 1, s.next);
      }
    }
  }

  lemma {:induction false} ScanValuesIgnoresTrailingSpace(t: seq<Token>, ty: SlotType, p: nat, n: nat)
    ensures ScanValues(Line(t, true), ty, p, n) == ScanValues(Line(t, false), ty, p, n)
    decreases n
  {
    if n > 0 {
      ScanValuesIgnoresTrailingSpace(t, ty, Convert(ty, t, p).next, n - 1);
    }
  }
}

=== FILE: cvm_shape.dfy ===
/** Shape inference of the CVM operator and of its gradient.  The forward
    operator takes an embedding `X` of shape `[N, D]` whose first two columns
    are the show and click statistics, and the `[N, 2]` statistics `CVM`; it
    outputs `Y`, which keeps all `D` columns when `use_cvm` is set and drops
    the two statistics columns otherwise.  Both operators pass `X`'s level of
    detail on to their output.

    A variable that is absent from the operator's context is `None`; every
    failed check aborts with the reason it names.
 */
module CvmShape {

  import opened Results

  /** The shape and level-of-detail table of one variable. */
  datatype VarDesc = VarDesc(dims: seq<int>, lod: seq<seq<nat>>)

  /** Why shape inference aborts. */
  datatype ShapeFault =
    | MissingX
    | MissingCvm
    | MissingY
    | MissingDy
    | MissingDx
    | XRank
    | CvmRank
    | DyRank
    | CvmWidth
    | BatchMismatch

  /** The default of the `use_cvm` attribute. */
  const USE_CVM_DEFAULT: bool := true

  /** The number of statistics columns (show and click). */
  const CVM_WIDTH: int := 2

  /** `CVMOp::InferShape`: checks, in order, that `X`, `CVM` and `Y` are
      present, that `X` and `CVM` have rank 2 and that `CVM` is two columns
      wide; `Y` is `X`'s shape, less the statistics columns unless `use_cvm`
      is set, with `X`'s level of detail. */
  function InferShape(x: Option<VarDesc>, cvm: Option<VarDesc>, hasY: bool, useCvm: bool): (r: Result<VarDesc, ShapeFault>)
    ensures r.Ok? <==> x.Some? && cvm.Some? && hasY && |x.value.dims| == 2 && |cvm.value.dims| == 2 && cvm.value.dims[1] == CVM_WIDTH
    ensures x.None? ==> r == Err(MissingX)
    ensures x.Some? && cvm.None? ==> r == Err(MissingCvm)
    ensures x.Some? && cvm.Some? && !hasY ==> r == Err(MissingY)
    ensures r.Ok? ==>
              && r.value.lod == x.value.lod
              && |r.value.dims| == 2 && r.value.dims[0] == x.value.dims[0]
              && r.value.dims[1] == x.value.dims[1] - (if useCvm then 0 else CVM_WIDTH)
    ensures r.Ok? && useCvm ==> r.value == x.value
  {
    if x.None? then Err(MissingX)
    else if cvm.None? then Err(MissingCvm)
    else if !hasY then Err(MissingY)
    else if |x.value.dims| != 2 then Err(XRank)
    else if |cvm.value.dims| != 2 then Err(CvmRank)
    else if cvm.value.dims[1] != CVM_WIDTH then Err(CvmWidth)
    else
      var dx := x.value.dims;
      assert [dx[0], dx[1]] == dx;
      Ok(VarDesc(if useCvm then [dx[0], dx[1]] else [dx[0], dx[1] - CVM_WIDTH], x.value.lod))
  }

  /** `CVMGradientOp::InferShape`: checks, in order, that `X`, `CVM`, `Y@GRAD`
      and `X@GRAD` are present, that `X`, `Y@GRAD` and `CVM` have rank 2,
      that `X` and `Y@GRAD` have the same number of rows and that `CVM` is
      two columns wide; `X@GRAD` has `X`'s shape and level of detail. */
  function InferGradShape(x: Option<VarDesc>, cvm: Option<VarDesc>, dy: Option<VarDesc>, hasDx: bool): (r: Result<VarDesc, ShapeFault>)
    ensures r.Ok? <==>
              && x.Some? && cvm.Some? && dy.Some? && hasDx
              && |x.value.dims| == 2 && |dy.value.dims| == 2 && |cvm.value.dims| == 2
              && x.value.dims[0] == dy.value.dims[0] && cvm.value.dims[1] == CVM_WIDTH
    ensures x.None? ==> r == Err(MissingX)
    ensures r.Ok? ==> r.value == x.value
  {
    if x.None? then Err(MissingX)
    else if cvm.None? then Err(MissingCvm)
    else if dy.None? then Err(MissingDy)
    else if !hasDx then Err(MissingDx)
    else if |x.value.dims| != 2 then Err(XRank)
    else if |dy.value.dims| != 2 then Err(DyRank)
    else if |cvm.value.dims| != 2 then Err(CvmRank)
    else if x.value.dims[0] != dy.value.dims[0] then Err(BatchMismatch)
    else if cvm.value.dims[1] != CVM_WIDTH then Err(CvmWidth)
    else Ok(VarDesc(x.value.dims, x.value.lod))
  }

  /** The gradient pass accepts whatever the forward pass inferred for `Y` as
      the shape of `Y@GRAD`, and gives `X@GRAD` exactly `X`'s description. */
  lemma ForwardOutputFitsGradient(x: Option<VarDesc>, cvm: Option<VarDesc>, useCvm: bool)
    requires InferShape(x, cvm, true, useCvm).Ok?
    ensures var y := InferShape(x, cvm, true, useCvm).value;
            InferGradShape(x, cvm, Some(y), true) == Ok(x.value)
  {
  }

  /** With the default attribute the output keeps every column of `X`. */
  lemma DefaultKeepsWidth(x: VarDesc, cvm: VarDesc)
    requires |x.dims| == 2 && |cvm.dims| == 2 && cvm.dims[1] == CVM_WIDTH
    ensures InferShape(Some(x), Some(cvm), true, USE_CVM_DEFAULT) == Ok(x)
  {
    assert [x.dims[0], x.dims[1]] == x.dims;
  }

  /** The statistics columns are dropped exactly when `use_cvm` is off: the
      two settings differ in width by two and agree on everything else. */
  lemma UseCvmDecidesWidth(x: Option<VarDesc>, cvm: Option<VarDesc>, hasY: bool)
    requires InferShape(x, cvm, hasY, true).Ok?
    ensures var kept := InferShape(x, cvm, hasY, true).value;
            var dropped := InferShape(x, cvm, hasY, false).value;
            && dropped.dims[1] + CVM_WIDTH == kept.dims[1]
            && dropped.dims[0] == kept.dims[0] && dropped.lod == kept.lod
  {
  }

  /** The gradient checks compare `Y@GRAD`'s rows with `X`'s but never its
      columns: a `Y@GRAD` of any width passes. */
  lemma GradientIgnoresDyWidth(x: VarDesc, cvm: VarDesc, dy: VarDesc, width: int)
    requires InferGradShape(Some(x), Some(cvm), Some(dy), true).Ok?
    requires |dy.dims| == 2
    ensures InferGradShape(Some(x), Some(cvm), Some(VarDesc([dy.dims[0], width], dy.lod)), true).Ok?
  {
  }
}

=== FILE: feed_schema.dfy ===
/** Initialisation of a multi-slot data feed (`MultiSlotDataFeed::Init`,
    identical in `MultiSlotInMemoryDataFeed::Init`): the slot schema, the
    batch size and the feed's life-cycle flags.
 */
module FeedSchema {

  import opened Results
  import WorkList

  /** One slot of the configuration's `multi_slot_desc`. */
  datatype SlotDesc = SlotDesc(name: string, typeName: string, isUsed: bool, isDense: bool)

  /** The parts of `DataFeedDesc` that `Init` reads. */
  datatype DataFeedDesc = DataFeedDesc(batchSize: int, multiSlotDesc: Option<seq<SlotDesc>>, pipeCommand: string)

  /** Why a data feed operation aborts the process. */
  datatype Fault =
    | MultiSlotDescNotSet
    | IllegalBatchSize(size: int)
    | IllegalQueueSize(size: int)
    | NotInitialized
    | FileListNotSet
    | NotStarted
    | ZeroCount
    | UnknownSlotType(typeName: string)
    | LineOverrun
    | SkipCounterOverflow
    | CannotOpen(file: string)
    | ChannelNotFirst

  /** The schema arrays `Init` fills: `all_slots_`, `all_slots_type_`,
      `use_slots_index_`, `use_slots_` and `use_slots_is_dense_`. */
  datatype Schema = Schema(
    allSlots: seq<string>,
    allSlotsType: seq<string>,
    useSlotsIndex: seq<int>,
    useSlots: seq<string>,
    useSlotsIsDense: seq<bool>)

  /** How many positions of `index` name a used slot (are not -1). */
  function NumIndexed(index: seq<int>): nat
  {
    if |index| == 0 then 0
    else NumIndexed(index[..|index| - 1]) + (if index[|index| - 1] != -1 then 1 else 0)
  }

  /** Position `i` of `index` is unused (-1) or holds the number of used
      positions before it. */
  predicate IndexedAt(index: seq<int>, i: nat)
    requires i < |index|
  {
    index[i] == -1 || index[i] == NumIndexed(index[..i])
  }

  /** Counting used positions one position further. */
  lemma NumIndexedStep(index: seq<int>, i: nat)
    requires i < |index|
    ensures NumIndexed(index[..i + 1]) == NumIndexed(index[..i]) + (if index[i] != -1 then 1 else 0)
  {
    assert index[..i + 1][..i] == index[..i];
  }

  /** Appending the next position's entry (-1, or the number of used
      positions so far) keeps every position indexed. */
  lemma IndexedAppend(index: seq<int>, idx: int)
    requires forall k :: 0 <= k < |index| ==> IndexedAt(index, k)
    requires idx == -1 || idx == NumIndexed(index)
    ensures forall k :: 0 <= k < |index| + 1 ==> IndexedAt(index + [idx], k)
    ensures NumIndexed(index + [idx]) == NumIndexed(index) + (if idx != -1 then 1 else 0)
  {
    var next := index + [idx];
    assert next[..|index|] == index;
    forall k | 0 <= k < |next| ensures IndexedAt(next, k) {
      if k < |index| {
        assert next[..k] == index[..k];
        assert IndexedAt(index, k);
      }
    }
  }

  /** The schema's own consistency: one entry per schema position in the
      three `all` arrays; a used position holds the number of used positions
      before it, which is also where its name sits in `useSlots`. */
  predicate ValidSchema(s: Schema) {
    && |s.allSlotsType| == |s.allSlots|
    && |s.useSlotsIndex| == |s.allSlots|
    && |s.useSlotsIsDense| == |s.useSlots|
    && NumIndexed(s.useSlotsIndex) == |s.useSlots|
    && (forall i :: 0 <= i < |s.useSlotsIndex| ==> IndexedAt(s.useSlotsIndex, i))
    && (forall i :: 0 <= i < |s.useSlotsIndex| && s.useSlotsIndex[i] != -1 ==>
          0 <= s.useSlotsIndex[i] < |s.useSlots| && s.useSlots[s.useSlotsIndex[i]] == s.allSlots[i])
  }

  /** `s` is the schema described by `slots`. */
  predicate SchemaOf(s: Schema, slots: seq<SlotDesc>) {
    && ValidSchema(s)
    && |s.allSlots| == |slots|
    && (forall i :: 0 <= i < |slots| ==>
          && s.allSlots[i] == slots[i].name
          && s.allSlotsType[i] == slots[i].typeName
          && (s.useSlotsIndex[i] != -1 <==> slots[i].isUsed))
    && (forall i :: 0 <= i < |slots| && slots[i].isUsed ==>
          s.useSlotsIsDense[s.useSlotsIndex[i]] == slots[i].isDense)
  }

  /** The per-feed state outside the schema: `default_batch_size_`,
      `queue_size_`, `pipe_command_`, `finish_init_` and `finish_start_`. */
  datatype DataFeed = DataFeed(
    schema: Schema,
    batchSize: int,
    queueSize: int,
    pipeCommand: string,
    initDone: bool,
    started: bool)

  /** A feed as `Init` leaves it. */
  predicate Ready(f: DataFeed) {
    ValidSchema(f.schema) && f.batchSize > 0 && f.queueSize > 0 && f.initDone
  }

  /** `SetBatchSize`: only positive sizes are accepted. */
  function SetBatchSize(batchSize: int): (r: Result<int, Fault>)
    ensures r.Ok? <==> batchSize > 0
    ensures r.Ok? ==> r.value == batchSize
    ensures r.Err? ==> r.error == IllegalBatchSize(batchSize)
  {
    if batchSize > 0 then Ok(batchSize) else Err(IllegalBatchSize(batchSize))
  }

  /** `SetQueueSize`: only positive capacities are accepted. */
  function SetQueueSize(queueSize: int): (r: Result<int, Fault>)
    ensures r.Ok? <==> queueSize > 0
    ensures r.Ok? ==> r.value == queueSize
  {
    if queueSize > 0 then Ok(queueSize) else Err(IllegalQueueSize(queueSize))
  }

  /** The schema with one more slot at the end. */
  function AppendSlot(s: Schema, slot: SlotDesc): Schema {
    if slot.isUsed then
      Schema(s.allSlots + [slot.name], s.allSlotsType + [slot.typeName], s.useSlotsIndex + [|s.useSlots|],
             s.useSlots + [slot.name], s.useSlotsIsDense + [slot.isDense])
    else
      Schema(s.allSlots + [slot.name], s.allSlotsType + [slot.typeName], s.useSlotsIndex + [-1],
             s.useSlots, s.useSlotsIsDense)
  }

  /** Appending a slot keeps the schema consistent. */
  lemma AppendSlotValid(s: Schema, slot: SlotDesc)
    requires ValidSchema(s)
    ensures ValidSchema(AppendSlot(s, slot))
  {
    var s' := AppendSlot(s, slot);
    IndexedAppend(s.useSlotsIndex, s'.useSlotsIndex[|s.useSlotsIndex|]);
    assert s'.useSlotsIndex == s.useSlotsIndex + [s'.useSlotsIndex[|s.useSlotsIndex|]];
  }

  /** Appending a slot describes the slots with that slot appended. */
  lemma AppendSlotSchemaOf(s: Schema, slots: seq<SlotDesc>, slot: SlotDesc)
    requires SchemaOf(s, slots)
    ensures SchemaOf(AppendSlot(s, slot), slots + [slot])
  {
    AppendSlotValid(s, slot);
  }

  /** Builds the schema arrays in one pass over the slots, in schema order. */
  method BuildSchema(slots: seq<SlotDesc>) returns (s: Schema)
    ensures SchemaOf(s, slots)
  {
    s := Schema([], [], [], [], []);
    var i := 0;
    while i < |slots|
      invariant 0 <= i <= |slots|
      invariant SchemaOf(s, slots[..i])
    {
      AppendSlotSchemaOf(s, slots[..i], slots[i]);
      assert slots[..i + 1] == slots[..i] + [slots[i]];
      s := AppendSlot(s, slots[i]);
      i := i + 1;
    }
    assert slots[..i] == slots;
  }

  /** `Init`: resets the life-cycle flags (including the shared
      `finish_set_filelist_`), aborts without a multi-slot description or with
      a non-positive batch size (which is also the queue capacity), and
      otherwise installs the schema and marks the feed initialised.  The
      shared file list and cursor are left as they were. */
  method Init(desc: DataFeedDesc, w: WorkList.WorkList) returns (r: Result<(DataFeed, WorkList.WorkList), Fault>)
    requires w.Valid()
    ensures r.Ok? <==> desc.multiSlotDesc.Some? && desc.batchSize > 0
    ensures desc.multiSlotDesc.None? ==> r == Err(MultiSlotDescNotSet)
    ensures desc.multiSlotDesc.Some? && desc.batchSize <= 0 ==> r == Err(IllegalBatchSize(desc.batchSize))
    ensures r.Ok? ==>
              var (f, w') := r.value;
              && Ready(f) && !f.started
              && SchemaOf(f.schema, desc.multiSlotDesc.value)
              && f.batchSize == desc.batchSize && f.queueSize == desc.batchSize
              && f.pipeCommand == desc.pipeCommand
              && w' == w.(listSet := false) && w'.Valid()
  {
    var w' := w.(listSet := false);
    if desc.multiSlotDesc.None? {
      return Err(MultiSlotDescNotSet);
    }
    var batchSize :- SetBatchSize(desc.batchSize);
    // the queue capacity is the same positive batch size, so it is accepted
    var queueSize := SetQueueSize(batchSize).value;
    var schema := BuildSchema(desc.multiSlotDesc.value);
    return Ok((DataFeed(schema, batchSize, queueSize, desc.pipeCommand, true, false), w'));
  }

  /** The used slots keep their schema order: a later used position gets a
      larger index. */
  lemma {:induction false} UsedIndexIncreasing(s: Schema, i: nat, j: nat)
    requires ValidSchema(s)
    requires i < j < |s.useSlotsIndex|
    requires s.useSlotsIndex[i] != -1 && s.useSlotsIndex[j] != -1
    ensures s.useSlotsIndex[i] < s.useSlotsIndex[j]
  {
    assert IndexedAt(s.useSlotsIndex, i) && IndexedAt(s.useSlotsIndex, j);
    NumIndexedPrefixGrows(s.useSlotsIndex, i + 1, j);
    NumIndexedStep(s.useSlotsIndex, i);
  }

  /** Counting used positions over a longer prefix never gives less. */
  lemma {:induction false} NumIndexedPrefixGrows(index: seq<int>, i: nat, j: nat)
    requires i <= j <= |index|
    ensures NumIndexed(index[..i]) <= NumIndexed(index[..j])
    decreases j - i
  {
    if i < j {
      NumIndexedPrefixGrows(index, i, j - 1);
      assert index[..j][..j - 1] == index[..j - 1];
    }
  }

  /** Every used-slot index is taken by some schema position, so the index
      map is a bijection from the used positions onto `[0, |useSlots|)`. */
  lemma {:induction false} UsedIndexOnto(s: Schema, k: nat)
    requires ValidSchema(s) && k < |s.useSlots|
    ensures exists i :: 0 <= i < |s.useSlotsIndex| && s.useSlotsIndex[i] == k
  {
    assert s.useSlotsIndex[..|s.useSlotsIndex|] == s.useSlotsIndex;
    var i := IndexOf(s.useSlotsIndex, |s.useSlotsIndex|, k);
  }

  /** The position inside `index[..n]` whose entry is `k`, for a well-formed
      index array (as `ValidSchema` describes it) with more than `k` used
      positions among the first `n`. */
  lemma {:induction false} IndexOf(index: seq<int>, n: nat, k: nat) returns (i: nat)
    requires n <= |index|
    requires forall i :: 0 <= i < |index| ==> IndexedAt(index, i)
    requires k < NumIndexed(index[..n])
    ensures i < n && index[i] == k
    decreases n
  {
    assert n > 0;
    assert index[..n][..n - 1] == index[..n - 1];
    if k < NumIndexed(index[..n - 1]) {
      i := IndexOf(index, n - 1, k);
    } else {
      i := n - 1;
      assert IndexedAt(index, i);
    }
  }
}

=== FILE: in_memory_feed.dfy ===
/** The in-memory multi-slot feed (`MultiSlotInMemoryDataFeed` on top of
    `InMemoryDataFeed`): `LoadIntoMemory` reads the claimed files into
    `memory_data_`, `LocalShuffle` shuffles that memory, `Start` moves it
    into the first of two channels, and each `Next` pops up to one batch
    from the current input channel, pushing every popped instance onto the
    other channel.  A `Next` that finds its input channel empty returns zero
    and swaps the two channels, so the next pass serves the same instances
    again.

    The channels are first-in first-out queues and are modelled as
    sequences.  `std::random_shuffle` is modelled as the algorithm the GNU
    C++ library implements, with the values `std::rand()` returns supplied
    as a parameter.
 */
module InMemoryFeed {

  import opened Results
  import opened Lines
  import opened WorkList
  import opened FeedSchema
  import opened ParseInstance
  import opened Batch
  import StreamFeed

  /** `memory_data_`, the channels `shuffled_ins_` (channel 0) and
      `shuffled_ins_out_` (channel 1), and `cur_channel_`. */
  datatype MemFeed = MemFeed(feed: DataFeed, memory: seq<Instance>, chan0: seq<Instance>, chan1: seq<Instance>, cur: nat) {

    /** `cur_channel_` only ever holds 0 or 1. */
    predicate Valid() {
      cur <= 1
    }

    /** The channel `Next` pops from. */
    function In(): seq<Instance> {
      if cur == 0 then chan0 else chan1
    }

    /** The channel `Next` pushes onto. */
    function Out(): seq<Instance> {
      if cur == 0 then chan1 else chan0
    }

    /** Every instance the feed holds, wherever it is. */
    function Held(): multiset<Instance> {
      multiset(memory) + multiset(chan0) + multiset(chan1)
    }
  }

  /** The feed as its constructor leaves it: nothing loaded, channel 0
      current. */
  function Fresh(f: DataFeed): (m: MemFeed)
    ensures m.Valid() && m.Held() == multiset{} && m.cur == 0
  {
    MemFeed(f, [], [], [], 0)
  }

  /** `LoadIntoMemory`: claims files until the work-list is exhausted and
      appends each file's instances to memory, in line order. */
  method LoadIntoMemory(m: MemFeed, w: WorkList, files: StreamFeed.Files) returns (r: Result<(MemFeed, WorkList), Fault>)
    requires ValidSchema(m.feed.schema) && w.Valid()
    ensures var read := StreamFeed.ReadFiles(m.feed.schema, w.Remaining(), files);
            && (r.Ok? <==> read.Ok?)
            && (r.Ok? ==> r.value == (m.(memory := m.memory + read.value), w.(cursor := |w.files|)))
            && (r.Err? ==> r.error == read.error)
  {
    var read := StreamFeed.ReadThread(m.feed.schema, w, files);
    if read.Err? {
      return Err(read.error);
    }
    var (loaded, w') := read.value;
    return Ok((m.(memory := m.memory + loaded), w'));
  }

  /** Exchanges two elements of a sequence. */
  function Swap(s: seq<Instance>, i: nat, j: nat): (t: seq<Instance>)
    requires i < |s| && j < |s|
    ensures |t| == |s| && multiset(t) == multiset(s)
    ensures t[i] == s[j] && t[j] == s[i]
    ensures forall k :: 0 <= k < |s| && k != i && k != j ==> t[k] == s[k]
  {
    s[i := s[j]][j := s[i]]
  }

  /** `LocalShuffle`: `std::random_shuffle` over memory, which for each
      position `i` from 1 on exchanges it with position `rand() % (i + 1)`.
      `rolls[i - 1]` is the value `rand()` returns for position `i`.  The
      memory is rearranged, never changed in content. */
  method LocalShuffle(m: MemFeed, rolls: seq<nat>) returns (m': MemFeed)
    requires |m.memory| <= |rolls| + 1
    ensures m' == m.(memory := m'.memory)
    ensures |m'.memory| == |m.memory| && multiset(m'.memory) == multiset(m.memory)
  {
    var mem := m.memory;
    var i := 1;
    while i < |mem|
      invariant |mem| == |m.memory| && multiset(mem) == multiset(m.memory)
      invariant 1 <= i
    {
      var j := rolls[i - 1] % (i + 1);
      if i != j {
        mem := Swap(mem, i, j);
      }
      i := i + 1;
    }
    m' := m.(memory := mem);
  }

  /** `Start`: aborts unless a file list has been set; loaded memory, if
      any, may only be moved while channel 0 is current (else the `CHECK`
      fails), and is appended to channel 0 and cleared.  The feed is then
      marked started. */
  function Start(m: MemFeed, w: WorkList): (r: Result<MemFeed, Fault>)
    requires m.Valid()
    ensures !w.listSet ==> r == Err(FileListNotSet)
    ensures w.listSet ==> (r.Ok? <==> m.memory == [] || m.cur == 0)
    ensures r.Err? && w.listSet ==> r.error == ChannelNotFirst
    ensures r.Ok? ==>
              && r.value.Valid() && r.value.feed == m.feed.(started := true)
              && r.value.memory == [] && r.value.Held() == m.Held()
              && r.value.cur == m.cur && r.value.chan0 == m.chan0 + m.memory && r.value.chan1 == m.chan1
  {
    if !w.listSet then Err(FileListNotSet)
    else if |m.memory| != 0 && m.cur != 0 then Err(ChannelNotFirst)
    else
      assert m.memory == [] ==> m.chan0 + m.memory == m.chan0;
      Ok(MemFeed(m.feed.(started := true), [], m.chan0 + m.memory, m.chan1, m.cur))
  }

  /** Every instance in either channel has the slot types `tys`. */
  predicate Conforming(m: MemFeed, tys: seq<SlotType>) {
    && (forall n :: 0 <= n < |m.chan0| ==> Conforms(tys, m.chan0[n]))
    && (forall n :: 0 <= n < |m.chan1| ==> Conforms(tys, m.chan1[n]))
  }

  /** The channels after one `Next` call: the batch it pops from the input
      channel is pushed, in order, onto the output channel; when there is
      nothing to pop the channels swap roles instead.  No instance is lost or
      duplicated. */
  function Advance(m: MemFeed): (m': MemFeed)
    requires m.Valid()
    ensures m'.Valid() && m'.feed == m.feed && m'.memory == m.memory && m'.Held() == m.Held()
    ensures var (batch, rest) := TakeBatch(m.feed.batchSize, m.In());
            && (|batch| > 0 ==> m'.cur == m.cur && m'.In() == rest && m'.Out() == m.Out() + batch)
            && (|batch| == 0 ==> m'.cur == 1 - m.cur && m'.Out() == m.In() && m'.In() == m.Out())
  {
    var (batch, rest) := TakeBatch(m.feed.batchSize, m.In());
    if |batch| == 0 then m.(cur := 1 - m.cur)
    else
      var out := m.Out() + batch;
      assert multiset(m.In()) == multiset(batch) + multiset(rest) by {
        assert m.In() == batch + rest;
      }
      if m.cur == 0 then m.(chan0 := rest, chan1 := out) else m.(chan1 := rest, chan0 := out)
  }

  /** Moving instances between the channels keeps them all of the slot
      types `tys`. */
  lemma AdvanceConforming(m: MemFeed, tys: seq<SlotType>)
    requires m.Valid() && Conforming(m, tys)
    ensures Conforming(Advance(m), tys)
  {
    var (batch, rest) := TakeBatch(m.feed.batchSize, m.In());
    var m' := Advance(m);
    assert m.In() == batch + rest;
    assert forall n :: 0 <= n < |batch| ==> batch[n] == m.In()[n];
    assert forall n :: 0 <= n < |rest| ==> rest[n] == m.In()[|batch| + n];
    if |batch| > 0 {
      assert forall n :: 0 <= n < |m'.Out()| ==> m'.Out()[n] == (m.Out() + batch)[n];
    }
  }

  /** What one `Next` call returns and publishes, and the feed after it. */
  datatype Delivery = Delivery(count: int, tensors: Option<seq<Tensor>>, after: MemFeed)

  /** `Next`: aborts unless started; pops up to one batch from the input
      channel, pushing each popped instance onto the output channel, and
      publishes the batch when it is not empty.  An empty batch swaps the
      channels instead. */
  function Next(m: MemFeed, tys: seq<SlotType>): (r: Result<Delivery, Fault>)
    requires m.Valid() && Conforming(m, tys) && |tys| == |m.feed.schema.useSlotsIsDense|
    ensures r.Err? <==> !m.feed.started
    ensures r.Err? ==> r.error == NotStarted
    ensures r.Ok? ==>
              var d := r.value;
              var batch := TakeBatch(m.feed.batchSize, m.In()).0;
              && d.after == Advance(m) && Conforming(d.after, tys)
              && d.count == |batch|
              && (d.count == 0 <==> d.tensors.None?)
              && (d.count > 0 ==> d.tensors == Some(PutToFeedVec(tys, FoldBatch(tys, batch), m.feed.schema.useSlotsIsDense, d.count)))
  {
    if !m.feed.started then Err(NotStarted)
    else
      var batch := TakeBatch(m.feed.batchSize, m.In()).0;
      assert forall n :: 0 <= n < |batch| ==> batch[n] == m.In()[n];
      AdvanceConforming(m, tys);
      var tensors := if |batch| == 0 then None
                     else Some(PutToFeedVec(tys, FoldBatch(tys, batch), m.feed.schema.useSlotsIsDense, |batch|));
      Ok(Delivery(|batch|, tensors, Advance(m)))
  }

  /** The feed after `Next` has been called until it returns zero. */
  function Pass(m: MemFeed): MemFeed
    requires m.Valid()
    decreases |m.In()|
  {
    var m' := Advance(m);
    if |TakeBatch(m.feed.batchSize, m.In()).0| == 0 then m' else Pass(m')
  }

  /** With a positive batch size, a pass serves every instance of the input
      channel once, in order, and moves it behind the instances already in
      the output channel; the closing zero-count call then swaps the
      channels, so the next pass starts over the same instances and finds
      the other channel empty. */
  lemma {:induction false} PassServesEachOnce(m: MemFeed)
    requires m.Valid() && m.feed.batchSize > 0
    ensures var p := Pass(m);
            && p.cur == 1 - m.cur
            && p.In() == m.Out() + m.In()
            && p.Out() == []
            && p.Held() == m.Held()
            && p.memory == m.memory && p.feed == m.feed
    decreases |m.In()|
  {
    var (batch, rest) := TakeBatch(m.feed.batchSize, m.In());
    var m' := Advance(m);
    if |batch| == 0 {
      assert m.In() == [];
      assert m.Out() + [] == m.Out();
      assert Pass(m) == m';
    } else {
      assert Pass(m) == Pass(m');
      PassServesEachOnce(m');
      assert m'.cur == m.cur && m'.In() == rest && m'.Out() == m.Out() + batch;
      assert m.Out() + batch + rest == m.Out() + m.In();
    }
  }

  /** Loading and starting puts the instances read, in file and line order,
      at the back of channel 0. */
  lemma LoadedInstancesReachChannel(m: MemFeed, w: WorkList, loaded: seq<Instance>)
    requires m.Valid() && m.cur == 0 && w.listSet
    ensures var r := Start(m.(memory := m.memory + loaded), w);
            r.Ok? && r.value.chan0 == m.chan0 + m.memory + loaded
  {
    assert m.chan0 + (m.memory + loaded) == m.chan0 + m.memory + loaded;
  }
}

=== FILE: lines.dfy ===
/** A text line of a data file, seen at the granularity of its
    whitespace-separated tokens, and the C conversions (`strtol`, `strtoull`,
    `strtof`) the validator and the parser apply to it.

    A `Line` keeps its tokens (maximal runs of non-space characters) and one
    extra bit: whether whitespace follows the last token.  Every conversion
    here either consumes one whole token or none ("nothing could be
    converted", in which case C leaves `endptr` where it was and returns 0).
 */
module Lines {

  import opened Results
  import opened CInt

  /** How a token reads as a number.  `IntLit` is an optionally signed run of
      decimal digits, which `strtol`, `strtoull` and `strtof` all consume
      completely.  `RealLit` is any other text `strtof` consumes completely
      (a decimal point, an exponent, ...); `fits` is false when `strtof`
      reports `ERANGE` for it.  `Junk` is text none of them can convert. */
  datatype Token =
    | IntLit(v: int)
    | RealLit(lexeme: string, fits: bool)
    | Junk(lexeme: string)

  datatype Line = Line(tokens: seq<Token>, trailingSpace: bool)

  /** The two slot types a schema may declare. */
  datatype SlotType = Float | Uint64

  /** The type a schema type name denotes; only these two names are known. */
  function TypeOf(name: string): (r: Option<SlotType>)
    ensures r == Some(Float) <==> name == "float"
    ensures r == Some(Uint64) <==> name == "uint64"
    ensures r.None? <==> name != "float" && name != "uint64"
  {
    if name == "float" then Some(Float)
    else if name == "uint64" then Some(Uint64)
    else None
  }

  /** A single-precision value, kept opaque: only the literal it was read
      from is recorded.  `NoDigits` is the `0.0f` `strtof` returns when
      nothing could be converted. */
  datatype Float32 = FromInt(v: int) | FromLexeme(lexeme: string) | NoDigits

  /** One parsed value ("feasign") of a slot. */
  datatype Feasign = FloatValue(f: Float32) | Uint64Value(u: U64)

  predicate HasType(x: Feasign, ty: SlotType) {
    match ty
    case Float => x.FloatValue?
    case Uint64 => x.Uint64Value?
  }

  /** The outcome of one C conversion started at token index `p`: the value,
      the index `endptr` is left at, and whether `errno` became `ERANGE`. */
  datatype Conv<T> = Conv(value: T, next: nat, erange: bool)

  /** The largest finite `float`, (2^24 - 1) * 2^104. */
  const FLT_MAX: int := 0xff_ffff * 0x1_0000_0000_0000_0000_0000_0000_00

  /** 2^128, the next value a wider exponent range would represent. */
  const TWO_128: int := 0x1_0000_0000_0000_0000_0000_0000_0000_0000

  /** Smallest magnitude an integer literal may have for `strtof` to overflow
      to infinity (2^128 - 2^103, halfway between `FLT_MAX` and 2^128, where
      round-to-nearest-even rounds up). */
  const FLOAT_OVERFLOW: int :=
    0x1_0000_0000_0000_0000_0000_0000_0000_0000 - 0x80_0000_0000_0000_0000_0000_0000

  function Abs(v: int): nat {
    if v < 0 then -v else v
  }

  function Strtol(t: seq<Token>, p: nat): (c: Conv<int>)
    ensures c.next == p || (c.next == p + 1 && p < |t| && t[p].IntLit?)
    ensures c.next == p ==> c.value == 0 && !c.erange
    ensures InLongRange(c.value)
  {
    if p < |t| && t[p].IntLit? then Conv(SaturateLong(t[p].v), p + 1, !InLongRange(t[p].v))
    else Conv(0, p, false)
  }

  function Strtoull(t: seq<Token>, p: nat): (c: Conv<U64>)
    ensures c.next == p || (c.next == p + 1 && p < |t| && t[p].IntLit?)
  {
    if p < |t| && t[p].IntLit? then Conv(StrtoullValue(t[p].v), p + 1, UllongOverflows(t[p].v))
    else Conv(0, p, false)
  }

  /** Under round-to-nearest-even an integer overflows `float` exactly when
      it is no nearer to `FLT_MAX` than to 2^128 (a tie goes to 2^128, whose
      significand is even); `strtof` then returns infinity and sets `ERANGE`. */
  function Strtof(t: seq<Token>, p: nat): (c: Conv<Float32>)
    ensures c.next == p || (c.next == p + 1 && p < |t| && !t[p].Junk?)
    ensures c.next == p ==> c.value == NoDigits && !c.erange
    ensures p < |t| && t[p].IntLit? ==> (c.erange <==> TWO_128 - Abs(t[p].v) <= Abs(t[p].v) - FLT_MAX)
    ensures p < |t| && t[p].RealLit? ==> (c.erange <==> !t[p].fits)
  {
    if p < |t| then
      match t[p]
      case IntLit(v) => Conv(FromInt(v), p + 1, v >= FLOAT_OVERFLOW || v <= -FLOAT_OVERFLOW)
      case RealLit(l, fits) => Conv(FromLexeme(l), p + 1, !fits)
      case Junk(_) => Conv(NoDigits, p, false)
    else Conv(NoDigits, p, false)
  }

  /** The conversion a slot of type `ty` applies to each of its values
      (`strtof` for "float", `strtoull` for "uint64"). */
  function Convert(ty: SlotType, t: seq<Token>, p: nat): (c: Conv<Feasign>)
    ensures HasType(c.value, ty)
    ensures c.next == p || (c.next == p + 1 && p < |t|)
    ensures c.next == p ==> !c.erange
    ensures ty == Float && p < |t| && t[p].IntLit? ==>
              (c.erange <==> TWO_128 - Abs(t[p].v) <= Abs(t[p].v) - FLT_MAX)
    ensures ty == Float && p < |t| && t[p].RealLit? ==> (c.erange <==> !t[p].fits)
    ensures ty == Uint64 && p < |t| && t[p].IntLit? ==> (c.erange <==> Abs(t[p].v) > ULLONG_MAX)
  {
    match ty
    case Float =>
      var c := Strtof(t, p);
      Conv(FloatValue(c.value), c.next, c.erange)
    case Uint64 =>
      var c := Strtoull(t, p);
      Conv(Uint64Value(c.value), c.next, c.erange)
  }

  /** A token a slot of type `ty` reads as one complete, in-range value. */
  predicate Fits(ty: SlotType, tok: Token) {
    var c := Convert(ty, [tok], 0);
    c.next == 1 && !c.erange
  }

  /** `endptr - str == len` once `p` tokens have been consumed (p >= 1): the
      last token was consumed and no whitespace follows it. */
  predicate AtEnd(line: Line, p: nat) {
    p == |line.tokens| && !line.trailingSpace
  }

  /** Conversions look only at the token under the cursor, so a line may be
      extended on the right without changing them. */
  lemma ConvertIgnoresSuffix(ty: SlotType, t: seq<Token>, rest: seq<Token>, p: nat)
    requires p < |t|
    ensures Convert(ty, t + rest, p) == Convert(ty, t, p)
    ensures Strtol(t + rest, p) == Strtol(t, p)
  {
    assert (t + rest)[p] == t[p];
  }

  /** The tokens of a line in the data format: for each slot, in schema
      order, the number of its values followed by the values themselves. */
  function Encode(row: seq<seq<Token>>): seq<Token>
  {
    if |row| == 0 then [] else [IntLit(|row[0]|)] + row[0] + Encode(row[1..])
  }

  /** A slot's values as the format allows them: a known type, at least one
      and at most `INT_MAX` values, each read whole and in range. */
  predicate WellFormedGroup(typeName: string, g: seq<Token>) {
    && TypeOf(typeName).Some?
    && 1 <= |g| <= INT_MAX
    && forall k :: 0 <= k < |g| ==> Fits(TypeOf(typeName).value, g[k])
  }

  /** One well-formed group of values per schema slot. */
  predicate WellFormedRow(types: seq<string>, row: seq<seq<Token>>) {
    |row| == |types| && forall i :: 0 <= i < |row| ==> WellFormedGroup(types[i], row[i])
  }

  /** Splits the encoding of a non-empty row into its first group and the rest. */
  lemma EncodeFirst(row: seq<seq<Token>>, rest: seq<Token>, t: seq<Token>, p: nat)
    requires |row| > 0 && p <= |t| && t[p..] == Encode(row) + rest
    ensures p + 1 + |row[0]| <= |t|
    ensures t[p] == IntLit(|row[0]|)
    ensures t[p + 1..p + 1 + |row[0]|] == row[0]
    ensures t[p + 1 + |row[0]|..] == Encode(row[1..]) + rest
  {
    var g := row[0];
    var tail := Encode(row[1..]) + rest;
    var s := t[p..];
    assert s == [IntLit(|g|)] + g + tail;
    assert t[p] == s[0];
    assert t[p + 1..p + 1 + |g|] == s[1..1 + |g|];
    assert t[p + 1 + |g|..] == s[1 + |g|..];
  }

  /** A conversion depends only on the token under the cursor. */
  lemma ConvertLocal(ty: SlotType, t: seq<Token>, p: nat)
    requires p < |t|
    ensures var c := Convert(ty, t, p);
            var d := Convert(ty, [t[p]], 0);
            c.value == d.value && c.erange == d.erange && c.next == p + d.next
  {
  }

  /** Dropping the first group of a well-formed row leaves a well-formed row
      for the following slots. */
  lemma WellFormedRowTail(types: seq<string>, i: nat, pre: seq<seq<Token>>)
    requires 0 < |pre| && i + |pre| <= |types|
    requires WellFormedRow(types[i..i + |pre|], pre)
    ensures WellFormedGroup(types[i], pre[0])
    ensures WellFormedRow(types[i + 1..i + |pre|], pre[1..])
  {
    assert types[i..i + |pre|][0] == types[i];
    forall k | 0 <= k < |pre[1..]|
      ensures WellFormedGroup(types[i + 1..i + |pre|][k], pre[1..][k])
    {
      assert types[i + 1..i + |pre|][k] == types[i..i + |pre|][k + 1];
    }
  }

  /** `row` is laid out in `t` from token `p` on: each group's count, then
      its values, group after group. */
  predicate EncodedAt(t: seq<Token>, p: nat, row: seq<seq<Token>>)
    decreases |row|
  {
    if |row| == 0 then p <= |t|
    else
      var q := p + 1 + |row[0]|;
      && q <= |t| && t[p] == IntLit(|row[0]|) && t[p + 1..q] == row[0]
      && EncodedAt(t, q, row[1..])
  }

  /** The encoding of a row, placed at `p`, is laid out there, and it ends
      at `p + |Encode(row)|`. */
  lemma {:induction false} EncodingLaidOut(t: seq<Token>, p: nat, row: seq<seq<Token>>, rest: seq<Token>)
    requires p <= |t| && t[p..] == Encode(row) + rest
    ensures EncodedAt(t, p, row) && p + |Encode(row)| <= |t|
    decreases |row|
  {
    if |row| > 0 {
      EncodeFirst(row, rest, t, p);
      EncodingLaidOut(t, p + 1 + |row[0]|, row[1..], rest);
    }
  }

  /** The groups of `row` are well formed for the slots `i ..` of `types`,
      group after group. */
  predicate RowFitsAt(types: seq<string>, i: nat, row: seq<seq<Token>>)
    decreases |row|
  {
    if |row| == 0 then i <= |types|
    else i < |types| && WellFormedGroup(types[i], row[0]) && RowFitsAt(types, i + 1, row[1..])
  }

  /** Groups each well formed for its slot fit from slot `i` on. */
  lemma {:induction false} RowFitsFrom(types: seq<string>, i: nat, row: seq<seq<Token>>)
    requires i + |row| <= |types|
    requires forall k :: 0 <= k < |row| ==> WellFormedGroup(types[i + k], row[k])
    ensures RowFitsAt(types, i, row)
    decreases |row|
  {
    if |row| > 0 {
      assert WellFormedGroup(types[i + 0], row[0]);
      forall k | 0 <= k < |row[1..]|
        ensures WellFormedGroup(types[i + 1 + k], row[1..][k])
      {
        assert WellFormedGroup(types[i + (k + 1)], row[k + 1]);
      }
      RowFitsFrom(types, i + 1, row[1..]);
    }
  }

  /** A well-formed row fits from slot 0. */
  lemma RowFitsWhole(types: seq<string>, row: seq<seq<Token>>)
    requires WellFormedRow(types, row)
    ensures RowFitsAt(types, 0, row)
  {
    forall k | 0 <= k < |row| ensures WellFormedGroup(types[0 + k], row[k]) {
    }
    RowFitsFrom(types, 0, row);
  }

  /** Groups well formed for the first slots fit from slot 0. */
  lemma RowFitsPrefix(types: seq<string>, pre: seq<seq<Token>>)
    requires |pre| <= |types| && WellFormedRow(types[..|pre|], pre)
    ensures RowFitsAt(types, 0, pre)
  {
    forall k | 0 <= k < |pre| ensures WellFormedGroup(types[0 + k], pre[k]) {
      assert types[..|pre|][k] == types[k];
    }
    RowFitsFrom(types, 0, pre);
  }

  /** Groups followed by a count `strtol` reads as zero (a literal 0, or a
      token it cannot convert): the groups are laid out from token 0 and the
      zero count comes right after them. */
  lemma BadCountLaidOut(pre: seq<seq<Token>>, bad: Token, rest: seq<Token>)
    requires bad == IntLit(0) || bad.Junk?
    ensures var t := Encode(pre) + [bad] + rest;
            && EncodedAt(t, 0, pre) && |Encode(pre)| < |t|
            && Strtol(t, |Encode(pre)|).value == 0 && WrapInt32(Strtol(t, |Encode(pre)|).value) == 0
  {
    var t := Encode(pre) + [bad] + rest;
    assert t[0..] == Encode(pre) + ([bad] + rest);
    EncodingLaidOut(t, 0, pre, [bad] + rest);
    assert t[|Encode(pre)|] == bad;
  }

  /** A well-formed group for slot `i` before a well-formed row for the
      slots after it is a well-formed row for the slots from `i`. */
  lemma WellFormedRowCons(types: seq<string>, i: nat, g: seq<Token>, more: seq<seq<Token>>)
    requires i < |types| && WellFormedGroup(types[i], g) && WellFormedRow(types[i + 1..], more)
    ensures WellFormedRow(types[i..], [g] + more)
  {
    var row := [g] + more;
    forall k | 0 <= k < |row|
      ensures WellFormedGroup(types[i..][k], row[k])
    {
      if k > 0 {
        assert types[i..][k] == types[i + 1..][k - 1];
      }
    }
  }

  /** A count token and its group in front of an encoding is the encoding
      of the longer row. */
  lemma EncodeCons(t: seq<Token>, p: nat, g: seq<Token>, more: seq<seq<Token>>)
    requires p + 1 + |g| <= |t| && t[p] == IntLit(|g|) && t[p + 1..p + 1 + |g|] == g
    requires t[p + 1 + |g|..] == Encode(more)
    ensures t[p..] == Encode([g] + more)
  {
    assert ([g] + more)[1..] == more;
    assert t[p..] == [t[p]] + t[p + 1..p + 1 + |g|] + t[p + 1 + |g|..];
  }

  /** Encoding a row adds, per group, its count token and its values. */
  lemma EncodeLength(row: seq<seq<Token>>)
    requires 0 < |row|
    ensures |Encode(row)| == 1 + |row[0]| + |Encode(row[1..])|
  {
  }
}

=== FILE: multi_slot_type.dfy ===
/** The slot record `MultiSlotType`: a type fixed at initialisation, the
    values read for the slot, and -- when the record accumulates a batch --
    the running offsets that delimit each instance's values.

    The class itself lives in data_feed.h, which is not part of this model;
    its operations are modelled as the data feed uses them: `Init(type)`
    starts an empty record of that type, `InitOffset()` seeds the offsets with
    a single 0, and `AddIns(other)` appends `other`'s values and pushes the new
    value count as the next offset (aborting when the two types differ).
 */
module MultiSlotType {

  import opened Lines

  datatype MultiSlot = MultiSlot(slotType: SlotType, values: seq<Feasign>, offset: seq<nat>) {

    /** Every value has the record's type. */
    predicate WellTyped() {
      forall k :: 0 <= k < |values| ==> HasType(values[k], slotType)
    }

    /** The shape of a batch accumulator: offsets start at 0, never decrease,
        and the last one is the number of values. */
    predicate IsAccumulator() {
      && |offset| >= 1
      && offset[0] == 0
      && offset[|offset| - 1] == |values|
      && forall k :: 0 <= k < |offset| - 1 ==> offset[k] <= offset[k + 1]
    }

    /** Number of instances folded into an accumulator. */
    function Count(): nat
      requires IsAccumulator()
    {
      |offset| - 1
    }

    /** The values the `n`-th folded instance contributed. */
    function Segment(n: nat): seq<Feasign>
      requires IsAccumulator() && n < Count()
    {
      assert offset[n] <= offset[n + 1] <= |values| by {
        OffsetsBounded(this, n);
        OffsetsBounded(this, n + 1);
      }
      values[offset[n]..offset[n + 1]]
    }
  }

  /** Offsets of an accumulator stay within its values. */
  lemma {:induction false} OffsetsBounded(m: MultiSlot, n: nat)
    requires m.IsAccumulator() && n < |m.offset|
    ensures m.offset[n] <= |m.values|
    ensures n + 1 < |m.offset| ==> m.offset[n] <= m.offset[n + 1]
    decreases |m.offset| - n
  {
    if n + 1 < |m.offset| {
      OffsetsBounded(m, n + 1);
    }
  }

  /** `Init(type)` followed by `InitOffset()`: an empty accumulator. */
  function NewAccumulator(ty: SlotType): (m: MultiSlot)
    ensures m.IsAccumulator() && m.WellTyped() && m.Count() == 0 && m.slotType == ty
  {
    MultiSlot(ty, [], [0])
  }

  /** `AddIns(ins)`: appends `ins`'s values as one more segment. */
  function AddIns(acc: MultiSlot, ins: MultiSlot): (r: MultiSlot)
    requires acc.IsAccumulator() && acc.slotType == ins.slotType
    ensures r.IsAccumulator() && r.slotType == acc.slotType
    ensures r.Count() == acc.Count() + 1
    ensures r.Segment(acc.Count()) == ins.values
    ensures forall n :: 0 <= n < acc.Count() ==> r.Segment(n) == acc.Segment(n)
    ensures r.values == acc.values + ins.values
    ensures acc.WellTyped() && ins.WellTyped() ==> r.WellTyped()
  {
    var r := MultiSlot(acc.slotType, acc.values + ins.values, acc.offset + [|acc.values| + |ins.values|]);
    AppendedIsAccumulator(acc, ins, r);
    AppendedSegments(acc, ins, r);
    r
  }

  /** Pushing the new value count keeps the accumulator shape. */
  lemma AppendedIsAccumulator(acc: MultiSlot, ins: MultiSlot, r: MultiSlot)
    requires acc.IsAccumulator()
    requires r == MultiSlot(acc.slotType, acc.values + ins.values, acc.offset + [|acc.values| + |ins.values|])
    ensures r.IsAccumulator() && r.Count() == acc.Count() + 1
  {
    assert r.offset[|acc.offset| - 1] == |acc.values|;
  }

  /** The earlier segments are kept and the new one holds `ins`'s values. */
  lemma AppendedSegments(acc: MultiSlot, ins: MultiSlot, r: MultiSlot)
    requires acc.IsAccumulator() && r.IsAccumulator() && r.Count() == acc.Count() + 1
    requires r.values == acc.values + ins.values && r.offset == acc.offset + [|acc.values| + |ins.values|]
    ensures r.Segment(acc.Count()) == ins.values
    ensures forall n :: 0 <= n < acc.Count() ==> r.Segment(n) == acc.Segment(n)
  {
    forall n | 0 <= n < acc.Count()
      ensures r.Segment(n) == acc.Segment(n)
    {
      OffsetsBounded(acc, n);
      OffsetsBounded(acc, n + 1);
      assert r.offset[n] == acc.offset[n] && r.offset[n + 1] == acc.offset[n + 1];
    }
  }
}

=== FILE: parse_instance.dfy ===
/** The line parser `MultiSlotDataFeed::ParseOneInstance` (shared verbatim
    by `MultiSlotInMemoryDataFeed`): one line becomes one record per used
    slot, in used-slot order.

    For every schema slot the parser reads the count with `strtol`, narrows
    it into an `int` and aborts when that is zero.  A used slot then reads
    `num` values with the conversion of its type (a negative `num` reads
    none); an unused slot is skipped by searching for `num + 1` further
    spaces, the first one ending the count token.  The parser never looks
    at what follows the last slot.

    The skip of an unused slot is modelled on tokens, for lines whose tokens
    are separated by single spaces, as the data generators write them: each
    space found moves past one token.  When a search runs off the end of
    the line, `find_first_of` reports "not found" and the character position
    becomes -1, and the next search starts over at the beginning of the line.
    Only when the last search of the skip finds nothing does the position
    stay -1; reading the next count from there is undefined, so the model
    reports `LineOverrun` if a slot follows.

    The skip loop `for (int j = 0; j <= num; ++j)` never ends normally when
    `num` is `INT_MAX`: the last `++j` overflows the `int`, which is
    undefined behaviour.  The parser reports that case as
    `SkipCounterOverflow` before skipping.
 */
module ParseInstance {

  import opened Results
  import opened CInt
  import opened Lines
  import opened MultiSlotType
  import opened FeedSchema
  import CheckFile

  /** One parsed line: the record of each used slot, by used-slot index. */
  type Instance = seq<MultiSlot>

  /** The values of one used slot: `n` conversions, each taking the token
      under the cursor when it can and otherwise yielding zero in place. */
  function ReadValues(line: Line, ty: SlotType, p: nat, n: nat): (r: (seq<Feasign>, nat))
    ensures |r.0| == n && p <= r.1 <= p + n
    ensures forall k :: 0 <= k < n ==> HasType(r.0[k], ty)
    decreases n
  {
    if n == 0 then ([], p)
    else
      var c := Convert(ty, line.tokens, p);
      var (more, q) := ReadValues(line, ty, c.next, n - 1);
      ([c.value] + more, q)
  }

  /** One `pos = line.find_first_of(' ', pos + 1)` on tokens: from the
      position in front of token `st` it finds the space after that token,
      which puts the cursor in front of token `st + 1`, or reports "not
      found", which the `int` stores as -1.  From -1 the next search starts
      at the beginning of the line and finds the space after token 0. */
  function FindNextSpace(line: Line, st: int): (r: int)
    ensures r == -1 || 1 <= r <= |line.tokens|
    ensures r == -1 || r == (if st < 0 then 0 else st) + 1
  {
    var k := if st < 0 then 0 else st;
    if k + 1 < |line.tokens| || (k + 1 == |line.tokens| && line.trailingSpace) then k + 1 else -1
  }

  /** `n` successive searches from cursor `st`. */
  function SkipSearch(line: Line, st: int, n: nat): int
    decreases n
  {
    if n == 0 then st else SkipSearch(line, FindNextSpace(line, st), n - 1)
  }

  /** Searches that stay on the line each move one token on. */
  lemma {:induction false} SkipSearchAhead(line: Line, st: nat, n: nat)
    requires st + n < |line.tokens| || (st + n == |line.tokens| && line.trailingSpace)
    ensures SkipSearch(line, st, n) == st + n
    decreases n
  {
    if n > 0 {
      SkipSearchAhead(line, st + 1, n - 1);
    }
  }

  /** Where the skip of an unused slot with count `num` at token `p` leaves
      the cursor: `num + 1` searches, none for a negative count; `None` when
      the last of them finds nothing.  A search that finds nothing does not
      end the skip: the next one starts over from the beginning of the
      line.  The loop counter is an `int`, so the count must stay below
      `INT_MAX`. */
  function SkipUnused(line: Line, p: nat, num: int): (r: Option<nat>)
    requires num < INT_MAX
    ensures num < 0 ==> r == Some(p)
    ensures num >= 0 && p + 1 + num < |line.tokens| ==> r == Some(p + 1 + num)
    ensures num >= 0 && p + 1 + num == |line.tokens| ==> r == if line.trailingSpace then Some(p + 1 + num) else None
    ensures r.Some? && num >= 0 ==> 1 <= r.value <= |line.tokens|
  {
    if num < 0 then Some(p)
    else
      var st := SkipSearch(line, p, num + 1);
      SkipSearchFromCount(line, p, num);
      if st < 0 then None else Some(st)
  }

  /** The searches of a skip that stays on the line pass the count and
      `num` tokens; when the last token is the last value and no space
      follows, the last search finds nothing. */
  lemma SkipSearchFromCount(line: Line, p: nat, num: nat)
    ensures var st := SkipSearch(line, p, num + 1);
            && (st == -1 || 1 <= st <= |line.tokens|)
            && (p + 1 + num < |line.tokens| || (p + 1 + num == |line.tokens| && line.trailingSpace) ==> st == p + 1 + num)
            && (p + 1 + num == |line.tokens| && !line.trailingSpace ==> st == -1)
  {
    if p + 1 + num < |line.tokens| || (p + 1 + num == |line.tokens| && line.trailingSpace) {
      SkipSearchAhead(line, p, num + 1);
    } else if p + 1 + num == |line.tokens| {
      SkipSearchAhead(line, p, num);
      SkipSearchLast(line, p, num);
    }
    SkipSearchInRange(line, p, num + 1);
  }

  /** The last of `n + 1` searches starts where the first `n` left off. */
  lemma {:induction false} SkipSearchLast(line: Line, st: int, n: nat)
    ensures SkipSearch(line, st, n + 1) == FindNextSpace(line, SkipSearch(line, st, n))
    decreases n
  {
    if n > 0 {
      SkipSearchLast(line, FindNextSpace(line, st), n - 1);
    }
  }

  /** After at least one search the cursor is -1 or in front of a token. */
  lemma {:induction false} SkipSearchInRange(line: Line, st: int, n: nat)
    requires 0 < n
    ensures var r := SkipSearch(line, st, n); r == -1 || 1 <= r <= |line.tokens|
    decreases n
  {
    if n > 1 {
      SkipSearchInRange(line, FindNextSpace(line, st), n - 1);
    }
  }

  /** The schema type of a used position is the type its record is given. */
  predicate RecordFits(s: Schema, inst: Instance, k: nat)
    requires ValidSchema(s) && k < |s.useSlotsIndex| && 0 <= s.useSlotsIndex[k] < |inst|
  {
    var r := inst[s.useSlotsIndex[k]];
    TypeOf(s.allSlotsType[k]) == Some(r.slotType) && r.WellTyped()
  }

  /** Where one slot leaves the parse: the token the next count is read
      from (`None` when the last search of an unused slot's skip found
      nothing) and the records collected so far. */
  datatype Progress = Progress(next: Option<nat>, acc: Instance)

  /** Reads slot `i`, whose count is at token `p`, after the records `acc`
      of the used slots before it. */
  function ParseSlot(s: Schema, line: Line, i: nat, p: nat, acc: Instance): (r: Result<Progress, Fault>)
    requires ValidSchema(s) && i < |s.useSlotsIndex|
    requires |acc| == NumIndexed(s.useSlotsIndex[..i])
    ensures r.Ok? ==> |r.value.acc| == NumIndexed(s.useSlotsIndex[..i + 1])
    ensures r.Ok? ==> |acc| <= |r.value.acc| && r.value.acc[..|acc|] == acc
    ensures r.Err? ==> r.error == ZeroCount || r.error == SkipCounterOverflow || r.error.UnknownSlotType?
    ensures r == Err(SkipCounterOverflow) <==>
              s.useSlotsIndex[i] == -1 && WrapInt32(Strtol(line.tokens, p).value) == INT_MAX
  {
    NumIndexedStep(s.useSlotsIndex, i);
    var c := Strtol(line.tokens, p);
    var num := WrapInt32(c.value);
    if num == 0 then Err(ZeroCount)
    else if s.useSlotsIndex[i] != -1 then
      match TypeOf(s.allSlotsType[i])
      case None => Err(UnknownSlotType(s.allSlotsType[i]))
      case Some(ty) =>
        var read := ReadValues(line, ty, c.next, if num < 0 then 0 else num);
        assert IndexedAt(s.useSlotsIndex, i);
        Ok(Progress(Some(read.1), acc + [MultiSlot(ty, read.0, [])]))
    else if num == INT_MAX then Err(SkipCounterOverflow)
    else Ok(Progress(SkipUnused(line, p, num), acc))
  }

  /** The parse of slots `i ..` from token `p`, with the records of the used
      slots before `i` already in `acc`. */
  function ParseSlots(s: Schema, line: Line, i: nat, p: nat, acc: Instance): (r: Result<Instance, Fault>)
    requires ValidSchema(s) && i <= |s.useSlotsIndex|
    requires |acc| == NumIndexed(s.useSlotsIndex[..i])
    ensures r.Ok? ==> |r.value| == |s.useSlots| && |acc| <= |r.value| && r.value[..|acc|] == acc
    ensures r.Err? ==> r.error == ZeroCount || r.error == LineOverrun || r.error == SkipCounterOverflow || r.error.UnknownSlotType?
    decreases |s.useSlotsIndex| - i
  {
    var index := s.useSlotsIndex;
    if i == |index| then
      assert index[..i] == index;
      Ok(acc)
    else
      var step :- ParseSlot(s, line, i, p, acc);
      match step.next
      case None =>
        if i + 1 == |index| then
          assert index[..i + 1] == index;
          Ok(step.acc)
        else Err(LineOverrun)
      case Some(q) =>
        var r := ParseSlots(s, line, i + 1, q, step.acc);
        assert r.Ok? ==> r.value[..|acc|] == r.value[..|step.acc|][..|acc|];
        r
  }

  /** `ParseOneInstance` on one line. */
  function ParseLine(s: Schema, line: Line): (r: Result<Instance, Fault>)
    requires ValidSchema(s)
    ensures r.Ok? ==> |r.value| == |s.useSlots|
    ensures r.Ok? ==> forall k :: 0 <= k < |s.useSlotsIndex| && s.useSlotsIndex[k] != -1 ==> RecordFits(s, r.value, k)
  {
    assert s.useSlotsIndex[..0] == [];
    ParsedRecordsFit(s, line, 0, 0, []);
    ParseSlots(s, line, 0, 0, [])
  }

  /** Every used slot from `i` on gets a record of its declared type whose
      values all have that type. */
  lemma {:induction false} ParsedRecordsFit(s: Schema, line: Line, i: nat, p: nat, acc: Instance)
    requires ValidSchema(s) && i <= |s.useSlotsIndex|
    requires |acc| == NumIndexed(s.useSlotsIndex[..i])
    ensures var r := ParseSlots(s, line, i, p, acc);
            r.Ok? ==> forall k :: i <= k < |s.useSlotsIndex| && s.useSlotsIndex[k] != -1 ==> RecordFits(s, r.value, k)
    decreases |s.useSlotsIndex| - i
  {
    var index := s.useSlotsIndex;
    var r := ParseSlots(s, line, i, p, acc);
    if i < |index| && r.Ok? {
      var step := ParseSlot(s, line, i, p, acc).value;
      ParseSlotFits(s, line, i, p, acc);
      if step.next.Some? {
        ParsedRecordsFit(s, line, i + 1, step.next.value, step.acc);
      }
      if index[i] != -1 {
        assert IndexedAt(index, i);
        assert r.value[..|step.acc|] == step.acc;
        assert r.value[index[i]] == step.acc[index[i]];
      }
    }
  }

  /** The record slot `i` adds has the slot's declared type. */
  lemma ParseSlotFits(s: Schema, line: Line, i: nat, p: nat, acc: Instance)
    requires ValidSchema(s) && i < |s.useSlotsIndex|
    requires |acc| == NumIndexed(s.useSlotsIndex[..i])
    ensures var r := ParseSlot(s, line, i, p, acc);
            r.Ok? && s.useSlotsIndex[i] != -1 ==> s.useSlotsIndex[i] < |r.value.acc| && RecordFits(s, r.value.acc, i)
  {
    assert IndexedAt(s.useSlotsIndex, i);
  }

  /** The parser applied to the lines of a file until the reader reports the
      end; the first aborting line aborts the whole read. */
  function ParseLines(s: Schema, lines: seq<Line>): (r: Result<seq<Instance>, Fault>)
    requires ValidSchema(s)
    ensures r.Ok? <==> forall k :: 0 <= k < |lines| ==> ParseLine(s, lines[k]).Ok?
    ensures r.Ok? ==> |r.value| == |lines| && forall k :: 0 <= k < |lines| ==> r.value[k] == ParseLine(s, lines[k]).value
  {
    if |lines| == 0 then Ok([])
    else
      var first :- ParseLine(s, lines[0]);
      var more := ParseLines(s, lines[1..]);
      assert forall k :: 1 <= k < |lines| ==> lines[k] == lines[1..][k - 1];
      if more.Err? then Err(more.error) else Ok([first] + more.value)
  }

  // ---------------------------------------------------------------------
  // Round trip with the line format

  /** The values a well-formed group denotes, token by token. */
  function DecodeGroup(ty: SlotType, g: seq<Token>): (vs: seq<Feasign>)
    ensures |vs| == |g|
  {
    if |g| == 0 then [] else [Convert(ty, [g[0]], 0).value] + DecodeGroup(ty, g[1..])
  }

  /** A group's values are read one token each. */
  lemma {:induction false} ReadValuesOnGroup(line: Line, ty: SlotType, p: nat, g: seq<Token>)
    requires p + |g| <= |line.tokens| && line.tokens[p..p + |g|] == g
    requires forall k :: 0 <= k < |g| ==> Fits(ty, g[k])
    ensures ReadValues(line, ty, p, |g|) == (DecodeGroup(ty, g), p + |g|)
    decreases |g|
  {
    if |g| > 0 {
      var t := line.tokens;
      assert t[p] == g[0] by { assert t[p..p + |g|][0] == t[p]; }
      ConvertLocal(ty, t, p);
      assert t[p + 1..p + |g|] == g[1..];
      ReadValuesOnGroup(line, ty, p + 1, g[1..]);
    }
  }

  /** The count of a well-formed group reads back as its length. */
  lemma CountReadsBack(t: seq<Token>, p: nat, g: seq<Token>)
    requires p < |t| && t[p] == IntLit(|g|) && 1 <= |g| <= INT_MAX
    ensures Strtol(t, p) == Conv(|g|, p + 1, false)
    ensures WrapInt32(Strtol(t, p).value) == |g|
  {
  }

  /** A used slot holding a well-formed group: its record is the decoded
      group and the parse goes on after the group. */
  lemma ParseStepUsed(s: Schema, line: Line, i: nat, p: nat, g: seq<Token>, acc: Instance)
    requires ValidSchema(s) && i < |s.useSlotsIndex| && s.useSlotsIndex[i] != -1
    requires |acc| == NumIndexed(s.useSlotsIndex[..i])
    requires p + 1 + |g| <= |line.tokens|
    requires line.tokens[p] == IntLit(|g|) && line.tokens[p + 1..p + 1 + |g|] == g
    requires WellFormedGroup(s.allSlotsType[i], g)
    ensures ParseSlot(s, line, i, p, acc) == Ok(Progress(Some(p + 1 + |g|), Collect(s, i, g, acc)))
  {
    CountReadsBack(line.tokens, p, g);
    ReadValuesOnGroup(line, TypeOf(s.allSlotsType[i]).value, p + 1, g);
  }

  /** An unused slot holding a well-formed group of fewer than `INT_MAX`
      values is skipped; one of exactly `INT_MAX` values overflows the skip
      loop's counter. */
  lemma ParseStepUnused(s: Schema, line: Line, i: nat, p: nat, g: seq<Token>, acc: Instance)
    requires ValidSchema(s) && i < |s.useSlotsIndex| && s.useSlotsIndex[i] == -1
    requires |acc| == NumIndexed(s.useSlotsIndex[..i])
    requires p + 1 + |g| <= |line.tokens|
    requires line.tokens[p] == IntLit(|g|) && 1 <= |g| <= INT_MAX
    ensures |g| < INT_MAX ==> ParseSlot(s, line, i, p, acc) == Ok(Progress(SkipUnused(line, p, |g|), acc))
    ensures |g| == INT_MAX ==> ParseSlot(s, line, i, p, acc) == Err(SkipCounterOverflow)
  {
    CountReadsBack(line.tokens, p, g);
  }

  /** Every unused slot among `i ..` holds fewer than `INT_MAX` values, so
      its skip loop ends. */
  predicate SkipsEnd(index: seq<int>, i: nat, row: seq<seq<Token>>) {
    forall k :: 0 <= k < |row| && i + k < |index| && index[i + k] == -1 ==> |row[k]| < INT_MAX
  }

  /** `SkipsEnd` for slots `i ..` is the condition on the first group and
      `SkipsEnd` for the rest. */
  lemma SkipsEndStep(index: seq<int>, i: nat, row: seq<seq<Token>>)
    requires 0 < |row| && i < |index|
    ensures SkipsEnd(index, i, row) <==>
              (index[i] == -1 ==> |row[0]| < INT_MAX) && SkipsEnd(index, i + 1, row[1..])
  {
  }

  /** The records collected once slot `i` has taken group `g`. */
  function Collect(s: Schema, i: nat, g: seq<Token>, acc: Instance): (r: Instance)
    requires ValidSchema(s) && i < |s.useSlotsIndex|
    requires s.useSlotsIndex[i] != -1 ==> TypeOf(s.allSlotsType[i]).Some?
    ensures s.useSlotsIndex[i] == -1 ==> r == acc
    ensures s.useSlotsIndex[i] != -1 ==> |r| == |acc| + 1 && r[..|acc|] == acc
  {
    if s.useSlotsIndex[i] == -1 then acc
    else
      var ty := TypeOf(s.allSlotsType[i]).value;
      acc + [MultiSlot(ty, DecodeGroup(ty, g), [])]
  }

  /** One group laid out at `p`: the parse moves past it to the next slot. */
  lemma ParseStep(s: Schema, line: Line, i: nat, p: nat, pre: seq<seq<Token>>, acc: Instance)
    requires ValidSchema(s) && 0 < |pre| && i < |s.useSlotsIndex|
    requires |acc| == NumIndexed(s.useSlotsIndex[..i])
    requires WellFormedGroup(s.allSlotsType[i], pre[0])
    requires EncodedAt(line.tokens, p, pre)
    requires 1 < |pre| || p + 1 + |pre[0]| < |line.tokens| || i + 1 == |s.useSlotsIndex|
    requires s.useSlotsIndex[i] == -1 ==> |pre[0]| < INT_MAX
    ensures |Collect(s, i, pre[0], acc)| == NumIndexed(s.useSlotsIndex[..i + 1])
    ensures ParseSlots(s, line, i, p, acc) == ParseSlots(s, line, i + 1, p + 1 + |pre[0]|, Collect(s, i, pre[0], acc))
  {
    var g := pre[0];
    var q := p + 1 + |g|;
    NumIndexedStep(s.useSlotsIndex, i);
    if s.useSlotsIndex[i] != -1 {
      ParseStepUsed(s, line, i, p, g, acc);
    } else {
      ParseStepUnused(s, line, i, p, g, acc);
      if q < |line.tokens| {
        assert SkipUnused(line, p, |g|) == Some(q);
      } else {
        assert s.useSlotsIndex[..i + 1] == s.useSlotsIndex;
      }
    }
  }

  /** The record the parse of a well-formed row gives used position `k`. */
  predicate DecodedAt(s: Schema, inst: Instance, row: seq<seq<Token>>, base: nat, k: nat)
    requires ValidSchema(s) && base <= k < |s.useSlotsIndex| && k - base < |row|
    requires s.useSlotsIndex[k] != -1 && |inst| == |s.useSlots|
    requires TypeOf(s.allSlotsType[k]).Some?
  {
    var ty := TypeOf(s.allSlotsType[k]).value;
    inst[s.useSlotsIndex[k]] == MultiSlot(ty, DecodeGroup(ty, row[k - base]), [])
  }

  /** Parsing a well-formed row laid out for all slots `i ..` succeeds, and
      gives each used slot its decoded group, exactly when every unused slot
      holds fewer than `INT_MAX` values; otherwise the skip loop's counter
      overflows. */
  lemma {:induction false} ParseSlotsOnEncoding(s: Schema, line: Line, i: nat, p: nat, row: seq<seq<Token>>, acc: Instance)
    requires ValidSchema(s) && i + |row| == |s.useSlotsIndex|
    requires |acc| == NumIndexed(s.useSlotsIndex[..i])
    requires RowFitsAt(s.allSlotsType, i, row)
    requires EncodedAt(line.tokens, p, row)
    ensures var r := ParseSlots(s, line, i, p, acc);
            && (r.Ok? <==> SkipsEnd(s.useSlotsIndex, i, row))
            && (r.Err? ==> r.error == SkipCounterOverflow)
            && (r.Ok? ==> forall k :: i <= k < |s.useSlotsIndex| && s.useSlotsIndex[k] != -1 ==>
                 TypeOf(s.allSlotsType[k]).Some? && DecodedAt(s, r.value, row, i, k))
    decreases |row|
  {
    var index := s.useSlotsIndex;
    if |row| > 0 {
      var q := p + 1 + |row[0]|;
      SkipsEndStep(index, i, row);
      if index[i] == -1 && |row[0]| == INT_MAX {
        ParseStepUnused(s, line, i, p, row[0], acc);
      } else {
        ParseStep(s, line, i, p, row, acc);
        var acc' := Collect(s, i, row[0], acc);
        ParseSlotsOnEncoding(s, line, i + 1, q, row[1..], acc');
        var r := ParseSlots(s, line, i, p, acc);
        if r.Ok? {
          DecodedExtends(s, r.value, row, i, acc);
        }
      }
    } else {
      assert index[..i] == index;
    }
  }

  /** The decoded records of slots `i + 1 ..`, together with the record slot
      `i` collected, are the decoded records of slots `i ..`. */
  lemma DecodedExtends(s: Schema, inst: Instance, row: seq<seq<Token>>, i: nat, acc: Instance)
    requires ValidSchema(s) && 0 < |row| && i + |row| == |s.useSlotsIndex| && |inst| == |s.useSlots|
    requires |acc| == NumIndexed(s.useSlotsIndex[..i]) && RowFitsAt(s.allSlotsType, i, row)
    requires var acc' := Collect(s, i, row[0], acc); |acc'| <= |inst| && inst[..|acc'|] == acc'
    requires forall k :: i + 1 <= k < |s.useSlotsIndex| && s.useSlotsIndex[k] != -1 ==>
               TypeOf(s.allSlotsType[k]).Some? && DecodedAt(s, inst, row[1..], i + 1, k)
    ensures forall k :: i <= k < |s.useSlotsIndex| && s.useSlotsIndex[k] != -1 ==>
              TypeOf(s.allSlotsType[k]).Some? && DecodedAt(s, inst, row, i, k)
  {
    var index := s.useSlotsIndex;
    var acc' := Collect(s, i, row[0], acc);
    forall k | i <= k < |index| && index[k] != -1
      ensures TypeOf(s.allSlotsType[k]).Some? && DecodedAt(s, inst, row, i, k)
    {
      if k == i {
        assert IndexedAt(index, i);
        assert inst[index[i]] == acc'[|acc|];
      } else {
        assert row[k - i] == row[1..][k - (i + 1)];
      }
    }
  }

  /** Round trip, parser side: the encoding of a well-formed row (followed by
      anything) parses, and each used slot's record holds exactly its group's
      values, of its declared type, unless an unused slot holds `INT_MAX`
      values, whose skip loop never ends normally. */
  lemma EncodingParses(s: Schema, row: seq<seq<Token>>, rest: seq<Token>, trailingSpace: bool)
    requires ValidSchema(s) && WellFormedRow(s.allSlotsType, row)
    ensures var r := ParseLine(s, Line(Encode(row) + rest, trailingSpace));
            && (r.Ok? <==> SkipsEnd(s.useSlotsIndex, 0, row))
            && (r.Err? ==> r.error == SkipCounterOverflow)
            && (r.Ok? ==> forall k :: 0 <= k < |s.allSlots| && s.useSlotsIndex[k] != -1 ==>
                 var ty := TypeOf(s.allSlotsType[k]).value;
                 r.value[s.useSlotsIndex[k]] == MultiSlot(ty, DecodeGroup(ty, row[k]), []))
  {
    var line := Line(Encode(row) + rest, trailingSpace);
    assert line.tokens[0..] == Encode(row) + rest;
    EncodingLaidOut(line.tokens, 0, row, rest);
    RowFitsWhole(s.allSlotsType, row);
    assert s.useSlotsIndex[..0] == [];
    ParseSlotsOnEncoding(s, line, 0, 0, row, []);
  }

  /** A line the corrected validator accepts encodes a well-formed row, and
      is parsed without aborting unless an unused slot holds `INT_MAX`
      values. */
  lemma CheckedLineParses(s: Schema, line: Line) returns (row: seq<seq<Token>>)
    requires ValidSchema(s) && CheckFile.CheckLine(s.allSlotsType, line) == CheckFile.Pass
    ensures WellFormedRow(s.allSlotsType, row) && line.tokens == Encode(row)
    ensures ParseLine(s, line).Ok? <==> SkipsEnd(s.useSlotsIndex, 0, row)
    ensures ParseLine(s, line).Err? ==> ParseLine(s, line).error == SkipCounterOverflow
  {
    row := CheckFile.AcceptedLineDecodes(s.allSlotsType, line);
    assert line == Line(Encode(row) + [], line.trailingSpace);
    EncodingParses(s, row, [], line.trailingSpace);
  }

  /** A file the corrected validator accepts is parsed into one instance per
      line; the only abort left is the skip of an unused slot holding
      `INT_MAX` values. */
  lemma CheckedFileParses(s: Schema, lines: seq<Line>)
    requires ValidSchema(s) && CheckFile.CheckFileCorrected(s.allSlotsType, Some(lines))
    ensures ParseLines(s, lines).Ok? ==> |ParseLines(s, lines).value| == |lines|
    ensures ParseLines(s, lines).Err? ==> ParseLines(s, lines).error == SkipCounterOverflow
  {
    forall k | 0 <= k < |lines|
      ensures ParseLine(s, lines[k]).Err? ==> ParseLine(s, lines[k]).error == SkipCounterOverflow
    {
      var _ := CheckedLineParses(s, lines[k]);
    }
    ParseLinesError(s, lines, SkipCounterOverflow);
  }

  /** When every line that aborts aborts for `e`, so does the whole read. */
  lemma {:induction false} ParseLinesError(s: Schema, lines: seq<Line>, e: Fault)
    requires ValidSchema(s)
    requires forall k :: 0 <= k < |lines| ==> ParseLine(s, lines[k]).Err? ==> ParseLine(s, lines[k]).error == e
    ensures ParseLines(s, lines).Err? ==> ParseLines(s, lines).error == e
  {
    if |lines| > 0 {
      assert forall k :: 1 <= k < |lines| ==> lines[k] == lines[1..][k - 1];
      ParseLinesError(s, lines[1..], e);
    }
  }

  /** A zero count (or a count token `strtol` cannot read) at any slot after
      well-formed earlier slots, none of them an unused one of `INT_MAX`
      values, aborts the parse. */
  lemma ZeroCountAborts(s: Schema, pre: seq<seq<Token>>, bad: Token, rest: seq<Token>, line: Line)
    requires ValidSchema(s) && |pre| < |s.allSlots| && WellFormedRow(s.allSlotsType[..|pre|], pre)
    requires SkipsEnd(s.useSlotsIndex, 0, pre)
    requires bad == IntLit(0) || bad.Junk?
    requires line.tokens == Encode(pre) + [bad] + rest
    ensures ParseLine(s, line) == Err(ZeroCount)
  {
    BadCountLaidOut(pre, bad, rest);
    RowFitsPrefix(s.allSlotsType, pre);
    assert s.useSlotsIndex[..0] == [];
    ZeroCountAfter(s, line, 0, 0, pre, [], |Encode(pre)|);
  }

  /** A count that narrows to zero aborts at that slot. */
  lemma ParseCountZero(s: Schema, line: Line, i: nat, p: nat, acc: Instance)
    requires ValidSchema(s) && i < |s.useSlotsIndex| && |acc| == NumIndexed(s.useSlotsIndex[..i])
    requires WrapInt32(Strtol(line.tokens, p).value) == 0
    ensures ParseSlots(s, line, i, p, acc) == Err(ZeroCount)
  {
  }

  /** A count that narrows to zero at token `e`, right after well-formed
      groups laid out for slots `i .. i + |pre|`, aborts the parse. */
  lemma {:induction false} ZeroCountAfter(s: Schema, line: Line, i: nat, p: nat, pre: seq<seq<Token>>, acc: Instance, e: nat)
    requires ValidSchema(s) && i + |pre| < |s.useSlotsIndex|
    requires |acc| == NumIndexed(s.useSlotsIndex[..i])
    requires RowFitsAt(s.allSlotsType, i, pre) && EncodedAt(line.tokens, p, pre)
    requires e == p + |Encode(pre)| < |line.tokens| && WrapInt32(Strtol(line.tokens, e).value) == 0
    requires SkipsEnd(s.useSlotsIndex, i, pre)
    ensures ParseSlots(s, line, i, p, acc) == Err(ZeroCount)
    decreases |pre|
  {
    if |pre| == 0 {
      ParseCountZero(s, line, i, p, acc);
    } else {
      var q := p + 1 + |pre[0]|;
      EncodeLength(pre);
      assert e == q + |Encode(pre[1..])|;
      assert RowFitsAt(s.allSlotsType, i + 1, pre[1..]) && EncodedAt(line.tokens, q, pre[1..]);
      SkipsEndStep(s.useSlotsIndex, i, pre);
      ParseStep(s, line, i, p, pre, acc);
      var acc' := Collect(s, i, pre[0], acc);
      ZeroCountAfter(s, line, i + 1, q, pre[1..], acc', e);
    }
  }
}

=== FILE: pipe_skip.dfy ===
/** The skip over an unused slot, on the characters of the line, in the two
    parsers that carry it.

    `ParseOneInstance` moves `pos` with `find_first_of(' ', pos + 1)`, once
    for the count and once per value; `ParseOneInstanceFromPipe` (in both data
    feed classes) has that search commented out and instead runs
    `while (line[pos + 1] != ' ') pos++;` the same number of times.  The loop
    stops in front of the first space and never steps over it, so every run
    after the first does nothing, and the parse goes on from inside the
    unused slot's count.

    Lines here are words (non-empty, space-free) separated by single spaces,
    the layout the token model of `Lines` stands for.  `pos` is a C `int`: a
    failed search returns `npos`, which the assignment turns into -1.  Both
    skips count `num + 1` runs with `for (int j = 0; j <= num; ++j)`, which
    overflows `j` when `num` is `INT_MAX`; they are modelled for smaller
    counts only.
 */
module PipeSkip {

  import opened Results
  import opened CInt
  import opened Lines
  import opened FeedSchema
  import opened MultiSlotType
  import ParseInstance

  /** A token as written to a data file: non-empty, without spaces. */
  predicate Word(w: string) {
    |w| > 0 && forall k :: 0 <= k < |w| ==> w[k] != ' '
  }

  predicate AllWords(ws: seq<string>) {
    forall k :: 0 <= k < |ws| ==> Word(ws[k])
  }

  /** The words separated by single spaces. */
  function Join(ws: seq<string>): string
    decreases |ws|
  {
    if |ws| == 0 then []
    else if |ws| == 1 then ws[0]
    else ws[0] + " " + Join(ws[1..])
  }

  /** Where word `k` begins in `Join(ws)`. */
  function Start(ws: seq<string>, k: nat): nat
    requires k <= |ws|
    decreases k
  {
    if k == 0 then 0 else |ws[0]| + 1 + Start(ws[1..], k - 1)
  }

  /** `find_first_of(' ', from)` with its result stored in an `int`: the
      first space at or after `from`, or -1 when there is none. */
  function FindSpace(line: string, from: nat): (r: int)
    ensures r == -1 || (from <= r < |line| && line[r] == ' ')
    ensures r == -1 ==> forall k :: from <= k < |line| ==> line[k] != ' '
    ensures r != -1 ==> forall k :: from <= k < r ==> line[k] != ' '
    decreases |line| - from
  {
    if from >= |line| then -1
    else if line[from] == ' ' then from
    else FindSpace(line, from + 1)
  }

  /** `n` successive searches, each starting one past the previous result. */
  function SkipFind(line: string, pos: int, n: nat): (r: int)
    requires pos >= -1
    ensures r >= -1
    decreases n
  {
    if n == 0 then pos else SkipFind(line, FindSpace(line, pos + 1), n - 1)
  }

  /** The skip of `ParseOneInstance`: `num + 1` searches (none when `num` is
      negative). */
  function SkipUnusedChars(line: string, pos: int, num: int): int
    requires pos >= -1 && num < INT_MAX
  {
    if num < 0 then pos else SkipFind(line, pos, num + 1)
  }

  /** One run of `while (line[pos + 1] != ' ') pos++;`.  Reading `line[size()]`
      yields the terminating NUL, which is not a space; the read after it is
      undefined behaviour, reported as `None`. */
  function AdvanceAsWritten(line: string, pos: nat): Option<nat>
    decreases |line| - pos
  {
    if pos + 1 < |line| then
      if line[pos + 1] == ' ' then Some(pos) else AdvanceAsWritten(line, pos + 1)
    else None
  }

  /** The skip of `ParseOneInstanceFromPipe`: `num + 1` runs of the loop. */
  function SkipAsWritten(line: string, pos: nat, num: int): Option<nat>
    requires num < INT_MAX
    decreases if num < 0 then 0 else num + 1
  {
    if num < 0 then Some(pos)
    else
      match AdvanceAsWritten(line, pos)
      case None => None
      case Some(q) => if num == 0 then Some(q) else SkipAsWritten(line, q, num - 1)
  }

  /** Where the count of slot `c` is read from when the slots before it
      were well formed: the start of the line for the first slot, otherwise
      the space in front of the count. */
  function CountPos(ws: seq<string>, c: nat): int
    requires c < |ws|
  {
    if c == 0 then 0 else Start(ws, c) - 1
  }

  // ---------------------------------------------------------------------
  // Searching a joined line

  function Shifted(d: nat, r: int): int {
    if r == -1 then -1 else r + d
  }

  /** A search inside the right part of `a + b` is a shifted search of `b`. */
  lemma {:induction false} FindSpaceShift(a: string, b: string, x: nat)
    ensures FindSpace(a + b, |a| + x) == Shifted(|a|, FindSpace(b, x))
    decreases |b| - x
  {
    if x < |b| {
      assert (a + b)[|a| + x] == b[x];
      if b[x] != ' ' {
        FindSpaceShift(a, b, x + 1);
      }
    }
  }

  /** A search that starts in a space-free tail of `a` continues into `b`. */
  lemma {:induction false} FindSpaceSkipsWord(a: string, b: string, from: nat)
    requires from <= |a| && forall k :: from <= k < |a| ==> a[k] != ' '
    ensures FindSpace(a + b, from) == Shifted(|a|, FindSpace(b, 0))
    decreases |a| - from
  {
    if from < |a| {
      assert (a + b)[from] == a[from];
      FindSpaceSkipsWord(a, b, from + 1);
    } else {
      FindSpaceShift(a, b, 0);
    }
  }

  /** A search started inside word `k` (or right after it) finds the space
      that ends it, or nothing after the last word. */
  lemma {:induction false} FindInWord(ws: seq<string>, k: nat, from: nat)
    requires AllWords(ws) && k < |ws|
    requires Start(ws, k) <= from <= Start(ws, k) + |ws[k]|
    ensures FindSpace(Join(ws), from) == if k + 1 < |ws| then Start(ws, k + 1) - 1 else -1
    decreases k
  {
    var w := ws[0];
    assert Word(w);
    if k == 0 {
      if |ws| == 1 {
        assert Join(ws) == w + [];
        FindSpaceSkipsWord(w, [], from);
      } else {
        assert Join(ws) == w + (" " + Join(ws[1..]));
        FindSpaceSkipsWord(w, " " + Join(ws[1..]), from);
      }
    } else {
      var rest := ws[1..];
      assert AllWords(rest) by {
        forall j | 0 <= j < |rest| ensures Word(rest[j]) {
          assert rest[j] == ws[j + 1];
        }
      }
      assert Join(ws) == (w + " ") + Join(rest);
      assert rest[k - 1] == ws[k];
      FindInWord(rest, k - 1, from - (|w| + 1));
      FindSpaceShift(w + " ", Join(rest), from - (|w| + 1));
    }
  }

  // ---------------------------------------------------------------------
  // The corrected skip: `find_first_of`

  /** `n` searches started inside word `c` end in front of word `c + n`, or
      at -1 when they run off the last word. */
  lemma {:induction false} SkipFindOverWords(ws: seq<string>, c: nat, pos: int, n: nat)
    requires AllWords(ws) && c < |ws| && 1 <= n && c + n <= |ws|
    requires pos >= -1 && Start(ws, c) <= pos + 1 <= Start(ws, c) + |ws[c]|
    ensures SkipFind(Join(ws), pos, n) == if c + n < |ws| then Start(ws, c + n) - 1 else -1
    decreases n
  {
    FindInWord(ws, c, pos + 1);
    if n > 1 {
      SkipFindOverWords(ws, c + 1, Start(ws, c + 1) - 1, n - 1);
    }
  }

  /** The first `a + b` searches are `a` searches, then `b` more. */
  lemma {:induction false} SkipFindSplit(line: string, pos: int, a: nat, b: nat)
    requires pos >= -1
    ensures SkipFind(line, pos, a + b) == SkipFind(line, SkipFind(line, pos, a), b)
    decreases a
  {
    if a > 0 {
      SkipFindSplit(line, FindSpace(line, pos + 1), a - 1, b);
    }
  }

  /** Corrected behaviour: from the count of slot `c`, the skip passes the
      count and its `num` values and stops at the space in front of the next
      count; when that count would lie past the last word, the search that
      runs off the line gives -1, and the searches left over start again
      from the beginning of the line. */
  lemma SkipLandsBeforeNextCount(ws: seq<string>, c: nat, num: int)
    requires AllWords(ws) && c < |ws| && num < INT_MAX
    ensures var r := SkipUnusedChars(Join(ws), CountPos(ws, c), num);
            && (num < 0 ==> r == CountPos(ws, c))
            && (num >= 0 ==>
                  r == if c + num + 1 < |ws| then Start(ws, c + num + 1) - 1
                       else if c + num + 1 == |ws| then -1
                       else SkipFind(Join(ws), -1, c + num + 1 - |ws|))
  {
    assert Word(ws[c]);
    if num >= 0 {
      var pos := CountPos(ws, c);
      if c + num + 1 <= |ws| {
        SkipFindOverWords(ws, c, pos, num + 1);
      } else {
        var toEnd: nat := |ws| - c;
        var left: nat := c + num + 1 - |ws|;
        SkipFindOverWords(ws, c, pos, toEnd);
        SkipFindSplit(Join(ws), pos, toEnd, left);
        assert toEnd + left == num + 1;
      }
    }
  }

  /** Starting over from -1, as many searches as there are words come back
      to -1: the leftover searches of a long skip go round the line. */
  lemma SkipFindCycles(ws: seq<string>)
    requires AllWords(ws) && 0 < |ws|
    ensures SkipFind(Join(ws), -1, |ws|) == -1
  {
    assert Word(ws[0]);
    FindInWord(ws, 0, 0);
    if 1 < |ws| {
      SkipFindOverWords(ws, 1, Start(ws, 1) - 1, |ws| - 1);
    }
  }

  /** The cursor of the token model as a character position: -1 stays -1,
      and in front of token `st` is where `CountPos` puts it. */
  function CharPos(ws: seq<string>, st: int): int
    requires st < |ws|
  {
    if st < 0 then -1 else CountPos(ws, st)
  }

  /** One search on the characters is one `ParseInstance.FindNextSpace` on
      the tokens. */
  lemma SearchMatchesTokens(ws: seq<string>, line: Line, st: int)
    requires AllWords(ws) && |line.tokens| == |ws| && !line.trailingSpace && -1 <= st < |ws|
    ensures var r := ParseInstance.FindNextSpace(line, st);
            r < |ws| && FindSpace(Join(ws), CharPos(ws, st) + 1) == CharPos(ws, r)
  {
    if |ws| > 0 {
      var k := if st < 0 then 0 else st;
      assert Word(ws[k]);
      FindInWord(ws, k, CharPos(ws, st) + 1);
    }
  }

  /** `n` searches on the characters are `n` searches on the tokens. */
  lemma {:induction false} SkipFindMatchesTokens(ws: seq<string>, line: Line, st: int, n: nat)
    requires AllWords(ws) && |line.tokens| == |ws| && !line.trailingSpace && -1 <= st < |ws|
    ensures var r := ParseInstance.SkipSearch(line, st, n);
            -1 <= r < |ws| && SkipFind(Join(ws), CharPos(ws, st), n) == CharPos(ws, r)
    decreases n
  {
    if n > 0 {
      SearchMatchesTokens(ws, line, st);
      SkipFindMatchesTokens(ws, line, ParseInstance.FindNextSpace(line, st), n - 1);
    }
  }

  /** The token model of the skip agrees with the characters for every
      count: where `ParseInstance.SkipUnused` moves to token `q`, the search
      stops in front of word `q`; where its last search finds nothing, the
      search gives -1. */
  lemma SkipMatchesTokens(ws: seq<string>, line: Line, c: nat, num: int)
    requires AllWords(ws) && |line.tokens| == |ws| && !line.trailingSpace && c < |ws| && num < INT_MAX
    ensures var r := SkipUnusedChars(Join(ws), CountPos(ws, c), num);
            match ParseInstance.SkipUnused(line, c, num)
            case Some(q) => q < |ws| && r == CountPos(ws, q)
            case None => r == -1
  {
    if num >= 0 {
      SkipFindMatchesTokens(ws, line, c, num + 1);
    }
  }

  // ---------------------------------------------------------------------
  // The skip as written

  /** One run of the loop is a search for the next space, stopping just
      before it. */
  lemma {:induction false} AdvanceIsSearch(line: string, pos: nat)
    ensures var s := FindSpace(line, pos + 1);
            AdvanceAsWritten(line, pos) == if s == -1 then None else Some(s - 1)
    decreases |line| - pos
  {
    if pos + 1 < |line| && line[pos + 1] != ' ' {
      AdvanceIsSearch(line, pos + 1);
    }
  }

  /** As written, the skip of the unused slot `c` never gets past its count:
      it stops on the last character of the count (in front of the space
      the corrected skip steps over first) and reads nothing further, or
      runs past the end of the line when the count is the last word. */
  lemma {:induction false} SkipAsWrittenStaysOnCount(ws: seq<string>, c: nat, num: int)
    requires AllWords(ws) && c < |ws| && 0 <= num < INT_MAX
    ensures var r := SkipAsWritten(Join(ws), if c == 0 then 0 else Start(ws, c) - 1, num);
            r == if c + 1 < |ws| then Some(Start(ws, c + 1) - 2) else None
  {
    var line := Join(ws);
    var pos: nat := if c == 0 then 0 else Start(ws, c) - 1;
    assert Word(ws[c]);
    FindInWord(ws, c, pos + 1);
    AdvanceIsSearch(line, pos);
    if c + 1 < |ws| {
      StartNext(ws, c);
      var q := Start(ws, c + 1) - 2;
      FindInWord(ws, c, q + 1);
      AdvanceIsSearch(line, q);
      StuckAfterFirst(line, q, num);
    }
  }

  /** Once the loop has stopped in front of a space, further runs stay put. */
  lemma {:induction false} StuckAfterFirst(line: string, q: nat, num: int)
    requires 0 <= num < INT_MAX && AdvanceAsWritten(line, q) == Some(q)
    ensures SkipAsWritten(line, q, num) == Some(q)
    decreases num
  {
    if num > 0 {
      StuckAfterFirst(line, q, num - 1);
    }
  }

  /** The two skips never agree on a well-formed line: the corrected one
      ends in front of a later count, the one as written inside this one. */
  lemma SkipsDisagree(ws: seq<string>, c: nat, num: int)
    requires AllWords(ws) && c < |ws| && 0 <= num < INT_MAX && c + num + 1 < |ws|
    ensures var fixed := SkipUnusedChars(Join(ws), CountPos(ws, c), num);
            var asWritten := SkipAsWritten(Join(ws), if c == 0 then 0 else Start(ws, c) - 1, num);
            asWritten.Some? && asWritten.value < fixed
  {
    SkipLandsBeforeNextCount(ws, c, num);
    SkipAsWrittenStaysOnCount(ws, c, num);
    StartGrows(ws, c + 1, c + num + 1);
  }

  /** Word `k + 1` starts one space after word `k` ends. */
  lemma {:induction false} StartNext(ws: seq<string>, k: nat)
    requires k < |ws|
    ensures Start(ws, k + 1) == Start(ws, k) + |ws[k]| + 1
    decreases k
  {
    if k > 0 {
      StartNext(ws[1..], k - 1);
      assert ws[1..][k - 1] == ws[k];
    }
  }

  /** Later words start further right. */
  lemma {:induction false} StartGrows(ws: seq<string>, i: nat, j: nat)
    requires i <= j <= |ws|
    ensures Start(ws, i) <= Start(ws, j)
    decreases i
  {
    if i > 0 {
      StartGrows(ws[1..], i - 1, j - 1);
    }
  }

  /** The schema `a: uint64, unused`, `b: uint64, used`. */
  function SkipThenRead(): Schema {
    Schema(["a", "b"], ["uint64", "uint64"], [-1, 0], ["b"], [false])
  }

  /** The tokens of "1 5 1 9". */
  function OneFiveOneNine(): Line {
    Line([IntLit(1), IntLit(5), IntLit(1), IntLit(9)], false)
  }

  lemma SkipThenReadValid()
    ensures ValidSchema(SkipThenRead())
    ensures NumIndexed(SkipThenRead().useSlotsIndex[..0]) == 0
    ensures NumIndexed(SkipThenRead().useSlotsIndex[..1]) == 0
  {
    var s := SkipThenRead();
    assert s.useSlotsIndex[..0] == [];
    assert s.useSlotsIndex[..1] == [-1];
    assert s.useSlotsIndex[..2] == s.useSlotsIndex;
    assert [-1][..0] == [];
    assert IndexedAt(s.useSlotsIndex, 0) && IndexedAt(s.useSlotsIndex, 1);
  }

  /** The line "1 5 1 9" under the schema `SkipThenRead`.  The corrected
      skip of `a` stops at the space in front of "1 9", so `b` reads one
      value, 9.  As written the skip stays on character 0, `b` reads its
      count from `a`'s count token again and takes `a`'s value 5 as its own. */
  lemma PipeSkipMisreads()
    ensures SkipUnusedChars("1 5 1 9", 0, 1) == 3
    ensures SkipAsWritten("1 5 1 9", 0, 1) == Some(0)
    ensures ValidSchema(SkipThenRead())
    ensures ParseInstance.ParseLine(SkipThenRead(), OneFiveOneNine()) == Ok([MultiSlot(Uint64, [Uint64Value(9)], [])])
    ensures ParseInstance.ParseSlots(SkipThenRead(), OneFiveOneNine(), 1, 0, []) == Ok([MultiSlot(Uint64, [Uint64Value(5)], [])])
  {
    SkipsOnOneFiveOneNine();
    SkipThenReadValid();
    FixedSkipReadsNine();
    AsWrittenRereadReadsFive();
  }

  lemma SkipsOnOneFiveOneNine()
    ensures SkipUnusedChars("1 5 1 9", 0, 1) == 3
    ensures SkipAsWritten("1 5 1 9", 0, 1) == Some(0)
  {
  }

  lemma FixedSkipReadsNine()
    requires ValidSchema(SkipThenRead())
    ensures ParseInstance.ParseLine(SkipThenRead(), OneFiveOneNine()) == Ok([MultiSlot(Uint64, [Uint64Value(9)], [])])
  {
    var s := SkipThenRead();
    var line := OneFiveOneNine();
    SkipThenReadValid();
    assert ParseInstance.ParseSlot(s, line, 0, 0, []) == Ok(ParseInstance.Progress(Some(2), []));
    assert Convert(Uint64, line.tokens, 3) == Conv(Uint64Value(9), 4, false);
    assert ParseInstance.ReadValues(line, Uint64, 4, 0) == ([], 4);
    assert [Uint64Value(9)] + [] == [Uint64Value(9)];
    assert ParseInstance.ReadValues(line, Uint64, 3, 1) == ([Uint64Value(9)], 4);
    assert ParseInstance.ParseSlot(s, line, 1, 2, []) == Ok(ParseInstance.Progress(Some(4), [MultiSlot(Uint64, [Uint64Value(9)], [])]));
  }

  lemma AsWrittenRereadReadsFive()
    requires ValidSchema(SkipThenRead())
    ensures ParseInstance.ParseSlots(SkipThenRead(), OneFiveOneNine(), 1, 0, []) == Ok([MultiSlot(Uint64, [Uint64Value(5)], [])])
  {
    var s := SkipThenRead();
    var line := OneFiveOneNine();
    SkipThenReadValid();
    assert Convert(Uint64, line.tokens, 1) == Conv(Uint64Value(5), 2, false);
    assert ParseInstance.ReadValues(line, Uint64, 2, 0) == ([], 2);
    assert [Uint64Value(5)] + [] == [Uint64Value(5)];
    assert ParseInstance.ReadValues(line, Uint64, 1, 1) == ([Uint64Value(5)], 2);
    assert ParseInstance.ParseSlot(s, line, 1, 0, []) == Ok(ParseInstance.Progress(Some(2), [MultiSlot(Uint64, [Uint64Value(5)], [])]));
  }

  /** The tokens of "3 1 2". */
  function ThreeOneTwo(): Line {
    Line([IntLit(3), IntLit(1), IntLit(2)], false)
  }

  /** The line "3 1 2" under the schema `SkipThenRead`: the skip of `a` makes
      four searches, the third runs off the line and the fourth starts over
      and stops in front of "1 2".  `b` then reads one value, 2, and the line
      parses without error. */
  lemma SkipWrapsAround()
    ensures SkipUnusedChars("3 1 2", 0, 3) == 1
    ensures ValidSchema(SkipThenRead())
    ensures ParseInstance.ParseLine(SkipThenRead(), ThreeOneTwo()) == Ok([MultiSlot(Uint64, [Uint64Value(2)], [])])
  {
    var s := SkipThenRead();
    var line := ThreeOneTwo();
    SkipThenReadValid();
    assert ParseInstance.SkipSearch(line, 0, 4) == 1;
    assert ParseInstance.ParseSlot(s, line, 0, 0, []) == Ok(ParseInstance.Progress(Some(1), []));
    assert Convert(Uint64, line.tokens, 2) == Conv(Uint64Value(2), 3, false);
    assert ParseInstance.ReadValues(line, Uint64, 3, 0) == ([], 3);
    assert [Uint64Value(2)] + [] == [Uint64Value(2)];
    assert ParseInstance.ReadValues(line, Uint64, 2, 1) == ([Uint64Value(2)], 3);
    assert ParseInstance.ParseSlot(s, line, 1, 1, []) == Ok(ParseInstance.Progress(Some(3), [MultiSlot(Uint64, [Uint64Value(2)], [])]));
  }

  /** An unused slot whose count is `INT_MAX` (here "2147483647 1 2" under
      `SkipThenRead`) is never skipped: the parse aborts with
      `SkipCounterOverflow` instead of reading `b`. */
  lemma SkipCounterOverflows()
    ensures ValidSchema(SkipThenRead())
    ensures ParseInstance.ParseLine(SkipThenRead(), Line([IntLit(INT_MAX), IntLit(1), IntLit(2)], false)) == Err(SkipCounterOverflow)
  {
    SkipThenReadValid();
  }
}

=== FILE: ps_instance.dfy ===
/** Role assignment of a parameter-server run (`PaddlePSInstance`): every
    MPI process learns from its rank, the run's size, the server/worker mode
    and the number of processes per node whether it is a worker (1), a
    server (0) or idle (-1).

    The counts are computed with Python 2's `/` on integers, which rounds
    toward negative infinity; Dafny's `/` by the positive divisor 2 rounds
    the same way.  Python's `%` by a positive divisor is never negative, as
    is Dafny's.
 */
module PsInstance {

  import CInt

  const WORKER: int := 1
  const SERVER: int := 0
  const IDLE: int := -1

  /** `_worker_num`: half the processes the run plans for. */
  function WorkerNum(nodes: int, proc: int): int {
    nodes * proc / 2
  }

  /** `_server_num`: the same half. */
  function ServerNum(nodes: int, proc: int): int {
    nodes * proc / 2
  }

  /** `_total_server_worker`. */
  function Total(nodes: int, proc: int): int {
    WorkerNum(nodes, proc) + ServerNum(nodes, proc)
  }

  /** Only a positive number of processes per node lets a rank fall below
      the total, so mode 1 never takes a remainder by zero or by a negative
      number. */
  lemma RankedMeansProcPositive(nodes: int, proc: int, rank: int)
    requires nodes >= 1 && 0 <= rank < Total(nodes, proc)
    ensures proc >= 1
  {
  }

  /** `_set_nodetype` for the process of rank `rank` in a run of `nodes`
      processes.  Mode 0 makes the first half of the planned processes
      workers and the second half servers; mode 1 alternates server and
      worker within each node; ranks past the plan, and every rank under any
      other mode, stay idle. */
  function NodeType(mode: int, rank: int, nodes: int, proc: int): (t: int)
    requires nodes >= 1 && rank >= 0
    ensures t == WORKER || t == SERVER || t == IDLE
    ensures t != IDLE <==> (mode == 0 || mode == 1) && rank < Total(nodes, proc)
  {
    if mode == 0 then
      if rank < ServerNum(nodes, proc) then WORKER
      else if rank < Total(nodes, proc) then SERVER
      else IDLE
    else if mode == 1 then
      if rank < Total(nodes, proc) then
        RankedMeansProcPositive(nodes, proc, rank);
        if 0 == rank % proc % 2 then SERVER else WORKER
      else IDLE
    else IDLE
  }

  /** `is_worker`. */
  predicate IsWorker(mode: int, rank: int, nodes: int, proc: int)
    requires nodes >= 1 && rank >= 0
  {
    NodeType(mode, rank, nodes, proc) == WORKER
  }

  /** `is_server`. */
  predicate IsServer(mode: int, rank: int, nodes: int, proc: int)
    requires nodes >= 1 && rank >= 0
  {
    NodeType(mode, rank, nodes, proc) == SERVER
  }

  /** Every process has exactly one role: worker, server, or idle exactly
      when it is neither. */
  lemma OneRole(mode: int, rank: int, nodes: int, proc: int)
    requires nodes >= 1 && rank >= 0
    ensures !(IsWorker(mode, rank, nodes, proc) && IsServer(mode, rank, nodes, proc))
    ensures NodeType(mode, rank, nodes, proc) == IDLE <==> !IsWorker(mode, rank, nodes, proc) && !IsServer(mode, rank, nodes, proc)
  {
  }

  /** How many of the ranks `0 .. n - 1` get role `t`. */
  function CountRole(mode: int, nodes: int, proc: int, t: int, n: nat): nat
    requires nodes >= 1
  {
    if n == 0 then 0
    else CountRole(mode, nodes, proc, t, n - 1) + (if NodeType(mode, n - 1, nodes, proc) == t then 1 else 0)
  }

  /** In mode 0 the first `n` ranks hold as many workers as reach below the
      worker count, and servers for the rest of them up to the total. */
  lemma {:induction false} ModeZeroPrefix(nodes: int, proc: int, n: nat)
    requires nodes >= 1 && proc >= 0 && n <= Total(nodes, proc)
    ensures CountRole(0, nodes, proc, WORKER, n) == (if n <= ServerNum(nodes, proc) then n else ServerNum(nodes, proc))
    ensures CountRole(0, nodes, proc, SERVER, n) == (if n <= ServerNum(nodes, proc) then 0 else n - ServerNum(nodes, proc))
  {
    if n > 0 {
      ModeZeroPrefix(nodes, proc, n - 1);
    }
  }

  /** Mode 0 assigns exactly `_worker_num` workers and `_server_num` servers
      among the planned ranks. */
  lemma ModeZeroCounts(nodes: int, proc: int)
    requires nodes >= 1 && proc >= 0
    ensures CountRole(0, nodes, proc, WORKER, Total(nodes, proc)) == WorkerNum(nodes, proc)
    ensures CountRole(0, nodes, proc, SERVER, Total(nodes, proc)) == ServerNum(nodes, proc)
  {
    ModeZeroPrefix(nodes, proc, Total(nodes, proc));
  }

  /** Division with remainder is unique: a quotient and a remainder in
      range are the ones `/` and `%` compute. */
  lemma DivModUnique(a: int, b: int, q: int, r: int)
    requires b > 0 && 0 <= r < b && a == q * b + r
    ensures a / b == q && a % b == r
  {
    var q', r' := a / b, a % b;
    assert (q' - q) * b == r - r';
    CInt.SmallMultipleIsZero(b, q' - q);
  }

  /** With an even number of processes per node, ranks `2i` and `2i + 1`
      sit at an even and the next odd position of the same node. */
  lemma EvenProcPairs(proc: int, i: nat)
    requires proc >= 2 && proc % 2 == 0
    ensures (2 * i) % proc % 2 == 0
    ensures (2 * i + 1) % proc == (2 * i) % proc + 1
  {
    var q := (2 * i) / proc;
    var r := (2 * i) % proc;
    var h := proc / 2;
    assert proc == 2 * h;
    var k := i - q * h;
    assert q * proc == 2 * (q * h);
    assert r == 2 * k;
    DivModUnique(r, 2, k, 0);
    assert r + 1 < proc;
    DivModUnique(2 * i + 1, proc, q, r + 1);
  }

  /** In mode 1 with an even number of processes per node, ranks `2i` and
      `2i + 1` of the plan are a server and a worker. */
  lemma ModeOnePairStep(nodes: int, proc: int, i: nat)
    requires nodes >= 1 && proc >= 2 && proc % 2 == 0 && 2 * i + 2 <= Total(nodes, proc)
    ensures CountRole(1, nodes, proc, SERVER, 2 * i + 2) == CountRole(1, nodes, proc, SERVER, 2 * i) + 1
    ensures CountRole(1, nodes, proc, WORKER, 2 * i + 2) == CountRole(1, nodes, proc, WORKER, 2 * i) + 1
  {
    EvenProcPairs(proc, i);
    assert NodeType(1, 2 * i, nodes, proc) == SERVER;
    assert NodeType(1, 2 * i + 1, nodes, proc) == WORKER;
  }

  /** In mode 1 with an even number of processes per node, the first `2m`
      planned ranks hold `m` servers and `m` workers. */
  lemma {:induction false} ModeOnePairs(nodes: int, proc: int, m: nat)
    requires nodes >= 1 && proc >= 2 && proc % 2 == 0 && 2 * m <= Total(nodes, proc)
    ensures CountRole(1, nodes, proc, SERVER, 2 * m) == m
    ensures CountRole(1, nodes, proc, WORKER, 2 * m) == m
  {
    if m > 0 {
      ModeOnePairs(nodes, proc, m - 1);
      ModeOnePairStep(nodes, proc, m - 1);
    }
  }

  /** Mode 1 with an even number of processes per node assigns the planned
      ranks half to servers and half to workers, matching the counts. */
  lemma ModeOneEvenCounts(nodes: int, proc: int)
    requires nodes >= 1 && proc >= 2 && proc % 2 == 0
    ensures CountRole(1, nodes, proc, WORKER, Total(nodes, proc)) == WorkerNum(nodes, proc)
    ensures CountRole(1, nodes, proc, SERVER, Total(nodes, proc)) == ServerNum(nodes, proc)
  {
    ModeOnePairs(nodes, proc, WorkerNum(nodes, proc));
  }

  /** With an odd number of processes per node, mode 1 does not match the
      counts: three processes on each of three nodes plan four workers and
      four servers but assign three workers and five servers. */
  lemma ModeOneOddUnbalanced()
    ensures WorkerNum(3, 3) == 4 && ServerNum(3, 3) == 4
    ensures CountRole(1, 3, 3, WORKER, Total(3, 3)) == 3
    ensures CountRole(1, 3, 3, SERVER, Total(3, 3)) == 5
  {
    assert Total(3, 3) == 8;
    assert CountRole(1, 3, 3, WORKER, 8) == 3 by {
      assert CountRole(1, 3, 3, WORKER, 4) == 1;
    }
    assert CountRole(1, 3, 3, SERVER, 8) == 5 by {
      assert CountRole(1, 3, 3, SERVER, 4) == 3;
    }
  }
}

=== FILE: results.dfy ===
/** Failure-carrying values shared by every module of the model.

    `Result` stands for the two ways the modelled code reports trouble: a
    recoverable `false`/zero return is modelled by the operation's own result
    type, while a `PADDLE_ENFORCE`/`CHECK` that aborts the process is an `Err`
    carrying the reason.  Both types support Dafny's `:-` operator.
 */
module Results {

  datatype Option<+T> = None | Some(value: T)

  datatype Result<+T, +E> = Ok(value: T) | Err(error: E) {

    predicate IsFailure() {
      Err?
    }

    function PropagateFailure<U>(): Result<U, E>
      requires Err?
    {
      Err(error)
    }

    function Extract(): T
      requires Ok?
    {
      value
    }
  }
}

=== FILE: stream_feed.dfy ===
/** The streaming multi-slot feed (`MultiSlotDataFeed` on top of
    `PrivateQueueDataFeed`): `Start` launches a reader that claims files from
    the shared work-list, parses every line and sends each instance into a
    blocking queue, closing it when the list is exhausted; `Next` receives up
    to one batch from that queue and publishes it to the feed variables.

    The queue is first-in first-out and `Receive` only fails once the queue
    is closed and empty, so whatever the interleaving of the reader and the
    consumer, the consumer receives exactly the instances the reader sends,
    in order.  The model therefore runs the reader to completion inside
    `Start` and lets `Next` take from the resulting sequence.
 */
module StreamFeed {

  import opened Results
  import opened Lines
  import opened WorkList
  import opened FeedSchema
  import opened ParseInstance
  import opened Batch

  /** The files the feed can open, each with its lines. */
  type Files = map<string, seq<Line>>

  /** Every instance of the named files, file after file and line after line;
      the first file that cannot be opened, or the first line that aborts the
      parser, aborts the whole read. */
  function ReadFiles(s: Schema, names: seq<string>, files: Files): (r: Result<seq<Instance>, Fault>)
    requires ValidSchema(s)
    ensures r.Ok? ==> forall n :: 0 <= n < |r.value| ==> |r.value[n]| == |s.useSlots|
    ensures r.Err? && names != [] && names[0] !in files ==> r.error == CannotOpen(names[0])
    decreases |names|
  {
    if |names| == 0 then Ok([])
    else if names[0] !in files then Err(CannotOpen(names[0]))
    else
      var first := ParseLines(s, files[names[0]]);
      if first.Err? then first
      else
        var more := ReadFiles(s, names[1..], files);
        if more.Err? then more else Ok(first.value + more.value)
  }

  /** The read succeeds exactly when every named file can be opened and
      every one of its lines parses. */
  lemma {:induction false} ReadFilesSucceeds(s: Schema, names: seq<string>, files: Files)
    requires ValidSchema(s)
    ensures ReadFiles(s, names, files).Ok? <==> forall i :: 0 <= i < |names| ==> names[i] in files && ParseLines(s, files[names[i]]).Ok?
    decreases |names|
  {
    if |names| > 0 {
      ReadFilesSucceeds(s, names[1..], files);
      assert forall i :: 1 <= i < |names| ==> names[i] == names[1..][i - 1];
    }
  }

  /** `queue` followed by what `r` read, or `r`'s failure. */
  function Prepend(queue: seq<Instance>, r: Result<seq<Instance>, Fault>): Result<seq<Instance>, Fault> {
    if r.Ok? then Ok(queue + r.value) else r
  }

  /** `ReadThread`: claims files until the work-list is exhausted; a file
      that cannot be opened fails the `CHECK`; each file's instances are sent
      in line order.  The result is what `ReadFiles` describes, and every
      file has been claimed. */
  method ReadThread(s: Schema, w: WorkList, files: Files) returns (r: Result<(seq<Instance>, WorkList), Fault>)
    requires ValidSchema(s) && w.Valid()
    ensures r.Ok? <==> ReadFiles(s, w.Remaining(), files).Ok?
    ensures r.Ok? ==> r.value == (ReadFiles(s, w.Remaining(), files).value, w.(cursor := |w.files|))
    ensures r.Err? ==> r.error == ReadFiles(s, w.Remaining(), files).error
  {
    var cur := w;
    var queue: seq<Instance> := [];
    assert ReadFiles(s, w.Remaining(), files).Ok? ==> [] + ReadFiles(s, w.Remaining(), files).value == ReadFiles(s, w.Remaining(), files).value;
    while true
      invariant cur.Valid() && cur.files == w.files && cur.listSet == w.listSet
      invariant ReadFiles(s, w.Remaining(), files) == Prepend(queue, ReadFiles(s, cur.Remaining(), files))
      decreases |cur.files| - cur.cursor
    {
      var (name, next) := PickOneFile(cur);
      if name.None? {
        assert cur.Remaining() == [];
        assert queue + [] == queue;
        return Ok((queue, cur));
      }
      assert cur.Remaining() == [name.value] + next.Remaining();
      if name.value !in files {
        return Err(CannotOpen(name.value));
      }
      var parsed := ParseLines(s, files[name.value]);
      if parsed.Err? {
        return Err(parsed.error);
      }
      ReadFilesStep(s, cur.Remaining(), files, queue);
      queue := queue + parsed.value;
      cur := next;
    }
  }

  /** Reading a list is reading its first file, then the rest. */
  lemma ReadFilesStep(s: Schema, names: seq<string>, files: Files, queue: seq<Instance>)
    requires ValidSchema(s) && |names| > 0 && names[0] in files && ParseLines(s, files[names[0]]).Ok?
    ensures Prepend(queue, ReadFiles(s, names, files))
              == Prepend(queue + ParseLines(s, files[names[0]]).value, ReadFiles(s, names[1..], files))
  {
    var first := ParseLines(s, files[names[0]]).value;
    var more := ReadFiles(s, names[1..], files);
    if more.Ok? {
      var rest := more.value;
      assert ReadFiles(s, names, files) == Ok(first + rest);
      assert queue + (first + rest) == queue + first + rest;
    }
  }

  /** `Start`: aborts unless a file list has been set; otherwise the reader
      runs over the files not yet claimed and the feed is marked started. */
  method Start(f: DataFeed, w: WorkList, files: Files) returns (r: Result<(DataFeed, seq<Instance>, WorkList), Fault>)
    requires ValidSchema(f.schema) && w.Valid()
    ensures !w.listSet ==> r == Err(FileListNotSet)
    ensures w.listSet ==> (r.Ok? <==> ReadFiles(f.schema, w.Remaining(), files).Ok?)
    ensures r.Ok? ==>
              && r.value.0 == f.(started := true)
              && r.value.1 == ReadFiles(f.schema, w.Remaining(), files).value
              && r.value.2.Valid() && r.value.2.Remaining() == []
  {
    if !w.listSet {
      return Err(FileListNotSet);
    }
    var read := ReadThread(f.schema, w, files);
    if read.Err? {
      return Err(read.error);
    }
    var (queue, w') := read.value;
    return Ok((f.(started := true), queue, w'));
  }

  /** The instances read under one schema can be batched together: they all
      have the slot types of the first. */
  lemma ReadFilesConform(s: Schema, names: seq<string>, files: Files)
    requires ValidSchema(s) && ReadFiles(s, names, files).Ok? && |ReadFiles(s, names, files).value| > 0
    ensures var q := ReadFiles(s, names, files).value;
            forall n :: 0 <= n < |q| ==> Conforms(SlotTypes(q[0]), q[n])
  {
    var q := ReadFiles(s, names, files).value;
    forall n | 0 <= n < |q| ensures Conforms(SlotTypes(q[0]), q[n]) {
      var a := ReadFromLine(s, names, files, 0);
      var b := ReadFromLine(s, names, files, n);
      ParsedInstancesConform(s, a, b);
    }
  }

  /** Every instance read comes from a line the parser accepts. */
  lemma {:induction false} ReadFromLine(s: Schema, names: seq<string>, files: Files, n: nat) returns (line: Line)
    requires ValidSchema(s) && ReadFiles(s, names, files).Ok? && n < |ReadFiles(s, names, files).value|
    ensures ParseLine(s, line).Ok? && ParseLine(s, line).value == ReadFiles(s, names, files).value[n]
    decreases |names|
  {
    var first := ParseLines(s, files[names[0]]).value;
    var more := ReadFiles(s, names[1..], files).value;
    assert ReadFiles(s, names, files).value == first + more;
    if n < |first| {
      line := files[names[0]][n];
    } else {
      line := ReadFromLine(s, names[1..], files, n - |first|);
    }
  }

  /** What one `Next` call hands out: the count it returns, the tensors it
      publishes (none for an empty batch), and the instances left queued. */
  datatype Delivery = Delivery(count: int, tensors: Option<seq<Tensor>>, rest: seq<Instance>)

  /** `Next`: aborts unless started; receives instances until the batch is
      full or the queue is closed and empty; publishes them when there is at
      least one.  `tys` are the slot types every queued instance has. */
  function Next(f: DataFeed, tys: seq<SlotType>, queue: seq<Instance>): (r: Result<Delivery, Fault>)
    requires |tys| == |f.schema.useSlotsIsDense|
    requires forall n :: 0 <= n < |queue| ==> Conforms(tys, queue[n])
    ensures r.Err? <==> !f.started
    ensures r.Err? ==> r.error == NotStarted
    ensures r.Ok? ==>
              var d := r.value;
              var (batch, rest) := TakeBatch(f.batchSize, queue);
              && d.count == |batch| && d.rest == rest
              && (d.count == 0 <==> d.tensors.None?)
              && (d.count > 0 ==> d.tensors == Some(PutToFeedVec(tys, FoldBatch(tys, batch), f.schema.useSlotsIsDense, d.count)))
  {
    if !f.started then Err(NotStarted)
    else
      var (batch, rest) := TakeBatch(f.batchSize, queue);
      assert forall n :: 0 <= n < |batch| ==> batch[n] == queue[n];
      var tensors := if |batch| == 0 then None
                     else Some(PutToFeedVec(tys, FoldBatch(tys, batch), f.schema.useSlotsIsDense, |batch|));
      Ok(Delivery(|batch|, tensors, rest))
  }
}

=== FILE: work_list.dfy ===
/** The file work-list shared by every data feed of a run (the static members
    `filelist_`, `file_idx_` and `finish_set_filelist_` of `DataFeed`).

    Claims are serialised by a mutex in the source, so any interleaving of
    worker threads amounts to one sequence of atomic `PickOneFile` calls; the
    model is that sequence.
 */
module WorkList {

  import opened Results

  /** `files` and `cursor` are `filelist_` and `file_idx_`; `listSet` is
      `finish_set_filelist_`.  The zero-initialised statics are `Initial()`. */
  datatype WorkList = WorkList(files: seq<string>, cursor: nat, listSet: bool) {

    /** The cursor never passes the end of the list. */
    predicate Valid() {
      cursor <= |files|
    }

    /** Files not yet claimed, in the order they will be handed out. */
    function Remaining(): seq<string>
      requires Valid()
    {
      files[cursor..]
    }
  }

  function Initial(): (w: WorkList)
    ensures w.Valid() && w.Remaining() == [] && !w.listSet
  {
    WorkList([], 0, false)
  }

  /** Why `SetFileList` aborts the process. */
  datatype SetListFault = NotInitialized | EmptyFileList

  /** `SetFileList(files)` on a feed whose `Init` has (`initDone`) or has not
      completed: aborts before initialisation or on an empty list, refuses
      (`false`, nothing changes) once a list is set, and otherwise installs the
      list with the cursor at its start. */
  function SetFileList(w: WorkList, initDone: bool, files: seq<string>): (r: Result<(bool, WorkList), SetListFault>)
    requires w.Valid()
    ensures !initDone ==> r == Err(NotInitialized)
    ensures initDone && w.listSet ==> r == Ok((false, w))
    ensures initDone && !w.listSet && files == [] ==> r == Err(EmptyFileList)
    ensures r.Ok? && r.value.0 ==> r.value.1 == WorkList(files, 0, true)
    ensures r.Ok? ==> r.value.1.Valid() && r.value.1.listSet
    ensures r.Ok? && r.value.0 ==> r.value.1.Remaining() == files
  {
    if !initDone then Err(NotInitialized)
    else if w.listSet then Ok((false, w))
    else if |files| == 0 then Err(EmptyFileList)
    else Ok((true, WorkList(files, 0, true)))
  }

  /** `PickOneFile`: `None` exactly when every file has been claimed;
      otherwise the file under the cursor, and the cursor moves on by one.
      The list itself and the `listSet` flag never change. */
  function PickOneFile(w: WorkList): (r: (Option<string>, WorkList))
    requires w.Valid()
    ensures r.1.Valid() && r.1.files == w.files && r.1.listSet == w.listSet
    ensures r.0.None? <==> w.cursor == |w.files|
    ensures r.0.None? ==> r.1 == w
    ensures r.0.Some? ==> r.0.value == w.files[w.cursor] && r.1.cursor == w.cursor + 1
    ensures r.0.Some? ==> [r.0.value] + r.1.Remaining() == w.Remaining()
  {
    if w.cursor == |w.files| then (None, w)
    else (Some(w.files[w.cursor]), w.(cursor := w.cursor + 1))
  }

  /** The files `n` successive `PickOneFile` calls claim, and the list after. */
  function PickMany(w: WorkList, n: nat): (r: (seq<string>, WorkList))
    requires w.Valid()
    ensures r.1.Valid()
    decreases n
  {
    if n == 0 then ([], w)
    else
      var (f, w1) := PickOneFile(w);
      match f
      case None => ([], w1)
      case Some(name) =>
        var (more, w2) := PickMany(w1, n - 1);
        ([name] + more, w2)
  }

  /** Successive claims hand out the remaining files once each, in list
      order: `n` calls claim the next `min(n, remaining)` files, and the
      cursor advances by exactly that many. */
  lemma {:induction false} PickManyClaimsInOrder(w: WorkList, n: nat)
    requires w.Valid()
    ensures var k := if n < |w.Remaining()| then n else |w.Remaining()|;
            PickMany(w, n).0 == w.Remaining()[..k]
            && PickMany(w, n).1 == w.(cursor := w.cursor + k)
    decreases n
  {
    if n != 0 && w.cursor < |w.files| {
      var w1 := PickOneFile(w).1;
      PickManyClaimsInOrder(w1, n - 1);
      assert w.Remaining() == [w.files[w.cursor]] + w1.Remaining();
    }
  }

  /** Once the list is exhausted, every further claim reports "no file" and
      leaves the work-list as it is. */
  lemma ExhaustedStaysExhausted(w: WorkList, n: nat)
    requires w.Valid() && w.cursor == |w.files|
    ensures PickMany(w, n) == ([], w)
  {
  }

  /** A refused second `SetFileList` neither replaces the list nor rewinds
      the cursor, whatever files it was given. */
  lemma SecondSetFileListChangesNothing(w: WorkList, first: seq<string>, second: seq<string>)
    requires w.Valid() && first != []
    ensures var w1 := SetFileList(w, true, first);
            w1.Ok? ==> SetFileList(w1.value.1, true, second) == Ok((false, w1.value.1))
  {
  }
}
